=== FILE: README.md ===
# Expediente routing engine of SIGED — a Dafny model

SIGED is a document-management system for an institute's front desk. A
citizen's or an office's request (an *expediente*) is registered at *mesa
de partes* and then travels from office to office. It follows the steps its
procedure (*procedimiento*, TUPA) prescribes, or a free route for "No TUPA"
procedures. Each office either derives it onward, hands it to a team member,
returns it, observes it back to whoever sent it, parks it outside the
institution, or finishes it. This project models the routing engine of
`gestion/views.py` with the Django plumbing removed. Each request handler
becomes a pure function over an immutable document record:

- the holder;
- the step number;
- the status;
- the step and total deadlines;
- the append-only movement history.

Around the handlers the project also models:

- the records of `gestion/models.py`, the traffic light `semaforo` and the
  correlative counters;
- the intake and derivation forms of `gestion/forms.py`;
- the business-day calendar;
- the route display of the detail page and of the public lookup;
- the role-naming and step-numbering rules of the catalog seeding script
  `cargar_datos_mpi.py`.

Layout, one module per file:

- `results.dfy` (`Results`): `Option` and `Result`.
- `text.dfy` (`Text`): the Python string operations the code relies on:
  - substring search;
  - ASCII `lower`, `isdigit` and `strip`;
  - `f"{n}"` and `f"{n:04d}"`, with their parsers.
- `calendar.dfy` (`Calendar`): `calcular_fecha_limite`. Instants are integer
  seconds, a day is `t / 86400`, and day 0 is a Monday. Holidays are a finite
  set of day numbers.
- `catalog.dfy` (`Catalog`): roles, profiles, procedures and their steps, plus
  the lookups the views make:
  - the step with a given order;
  - the first holder of a role;
  - a unit's head;
  - the two "free route" tests.
- `correlatives.dfy` (`Correlatives`): the `(year, kind)` counters and the
  `EXP-…` / `RD-…` codes.
- `documents.dfy` (`Documents`): `Documento`, `Movimiento` and `semaforo`.
- `forms.dfy` (`Forms`): `validar_archivo`, `DocumentoForm` (offered
  procedures and `clean`) and `DerivacionForm` (the head's team).
- `read_views.dfy` (`ReadViews`): the "[DESVÍO" scan, the route each page
  shows, and the remaining-time breakdown.
- `routing.dfy` (`Routing`):
  - creation;
  - the five actions of `derivar_documento`;
  - redirection and annulment.
- `routing_props.dfy` (`RoutingProps`): the properties of the handlers,
  including an invariant kept over any sequence of requests.
- `seeding.dfy` (`Seeding`): the role names and the dense step numbering of
  the seeding script.

The state every handler reads besides the document is passed in as an `Env`
value:

- the profile directory in primary-key order;
- the holiday set;
- the current instant `now`;
- the current year.

The handlers of `derivar_documento` also return the correlative counters,
because "derive" may draw a resolution number even when it then aborts.

Five behaviours of the code that a reader might not expect, which the
model reproduces:

- A forced route change is honoured even at the last catalog step. The
  forced-or-free test comes before the last-step test
  (gestion/views.py:620-633).
- Creation sets the total deadline only when it routes the new document
  (gestion/views.py:194-195). A document that stays with its submitter has
  none (gestion/views.py:216-219).
- "observe" answers the *oldest* movement addressed to the actor, although
  the comment at gestion/views.py:534 speaks of the last one. `.last()`
  under the model's descending ordering (gestion/models.py:185) is the
  oldest.
- An intake form is also refused when the sender is longer than 200
  characters or the DNI/RUC field longer than 11, even for an internal
  submission that needs no id (gestion/models.py:116-118). `ModelForm`
  validation applies the model's column widths to the cleaned values, for
  every field that has no error yet.
- Every upload field refuses an empty file. Django's `FileField` does that
  before any validator runs, so it applies to the annulment's supporting
  file too, which has no validator (gestion/forms.py:244-248).

## Model

| member | source | states |
|---|---|---|
| Calendar.FiniteHolidaysCannotBlock | gestion/views.py:41-53 | however the holidays fall, a business day comes within a week after the later of the start day and the last holiday, so the day-by-day search always stops |
| Calendar.NextBusinessDay | gestion/views.py:41-53 | the result is a later business day and every day strictly between is a weekend or a holiday |
| Calendar.NthBusinessDay | gestion/views.py:41-53 | zero business days leave the day alone; otherwise the result is a later Mon–Fri non-holiday |
| Calendar.NthBusinessDayCounts | gestion/views.py:41-53 | exactly n business days lie in (day, result], and only n-1 lie before the result's day |
| Calendar.AddBusinessDays | gestion/views.py:32-55 | adding 0 days returns the start instant; adding n ≥ 1 gives a strictly later instant on a Mon–Fri non-holiday at the same time of day |
| Calendar.AddBusinessDaysCounts | gestion/views.py:32-55 | exactly n qualifying days lie in (start day, result day], and n-1 in (start day, result day - 1] |
| Calendar.AddBusinessDaysUnique | gestion/views.py:32-55 | any instant at the same time of day, on a business day, with n business days up to its day, is the result: the counting description determines the deadline |
| Calendar.ComputeDeadline | gestion/views.py:32-55 | the source loop (one calendar day at a time, counting business days until n) returns exactly AddBusinessDays(now, n) |
| Catalog.Lookup | gestion/models.py:24-31 | the profile found has the key asked for; none is found exactly when no profile has it |
| Catalog.StepAt | gestion/views.py:416-422 | the step returned is the first, in key order, of the procedure's steps with the order asked for; `DoesNotExist` exactly when no step has that order |
| Catalog.StepAtUnique | gestion/models.py:61-63 | with unique (procedure, order) pairs the lookup returns the one step carrying the order |
| Catalog.DenseStepAt | gestion/views.py:632-640 | on a catalog numbered 1..N, step k is the k-th entry for 1 ≤ k ≤ N and there is none otherwise |
| Catalog.FirstHolder | gestion/views.py:635-637 | the profile returned holds the role and no profile before it in key order does; none exactly when nobody holds the role |
| Catalog.HeadOf | gestion/views.py:444-447 | the profile returned is the first head of the unit in directory (primary-key) order; none exactly when the unit has no head |
| Catalog.IsFreeRouting | gestion/views.py:410 | the derivation view routes a procedure freely iff "GEN" occurs in its code or "No TUPA" in its name |
| Catalog.IsGenericAtIntake | gestion/forms.py:135 | the intake form treats a procedure as generic iff its name contains "No TUPA" or "Genérico" or its code contains "GEN-001" |
| Catalog.CanInitiate | gestion/forms.py:104-106 | a profile may start a procedure iff the procedure lists no initiating roles or lists the profile's role; without a role, only the open ones |
| Catalog.GenericAtIntakeButRouted | gestion/forms.py:135 | a procedure named "Genérico" with an ordinary code must name a destination at intake, yet the derivation view routes it along the catalog |
| Catalog.FreeButNotGenericAtIntake | gestion/views.py:410 | a "GEN-002" procedure is routed freely by the derivation view but is not generic for the intake form |
| Catalog.GenericAtIntakeIsMostlyFree | gestion/forms.py:135 | apart from the "Genérico" wording, every procedure generic at intake is free-routing in the derivation view |
| Correlatives.Next | gestion/models.py:217-227 | a draw returns the counter's old value plus one, stores it, and leaves every other (year, kind) counter alone |
| Correlatives.DrawManyConsecutive | gestion/views.py:1086-1103 | k successive draws return k consecutive numbers, so no number is handed out twice |
| Correlatives.NextExpedienteId | gestion/views.py:233-250 | the year's EXPEDIENTE counter goes up by exactly one and no other counter moves |
| Correlatives.ExpedienteIdReadsBack | gestion/views.py:248-250 | the id drawn reads back as the year and the counter's new value |
| Correlatives.ExpedienteCode | gestion/views.py:250 | the id starts "EXP-" and is as long as the prefix, the year, a dash and the number padded to at least four digits |
| Correlatives.ExpedienteCodeFitsColumn | gestion/models.py:96 | with a four-digit year, every number below 10^11 gives an id within the 20-character column, and 10^11 itself does not |
| Correlatives.ExpedienteCodeRoundTrip | gestion/views.py:250 | `EXP-{year}-{n:04d}` parses back to (year, n) |
| Correlatives.ExpedienteCodeInjective | gestion/views.py:250 | different (year, number) pairs never share an expediente id |
| Correlatives.NextResolutionCode | gestion/views.py:1086-1103 | the year's counter of that kind goes up by exactly one and no other counter moves |
| Correlatives.ResolutionCodeReadsBack | gestion/views.py:1099-1103 | the resolution code drawn reads back as the year and the counter's new value |
| Correlatives.ResolutionCode | gestion/views.py:1100-1101 | the code starts "RD-", ends "-IESPHVEG", and is as long as those, the number padded to at least four digits, a dash and the year |
| Correlatives.ResolutionCodeRoundTrip | gestion/views.py:1100-1101 | `RD-{n:04d}-{year}-IESPHVEG` parses back to (year, n) |
| Correlatives.ResolutionCodeInjective | gestion/views.py:1100-1101 | different (year, number) pairs never share a resolution code |
| Correlatives.SuccessiveExpedienteIdsDiffer | gestion/views.py:233-250 | two expediente ids drawn one after the other differ |
| Correlatives.GeneratorsAreIndependent | gestion/models.py:222-227 | drawing an expediente id never touches the resolution counter, and vice versa |
| Documents.Semaforo | gestion/models.py:134-152 | gray iff there is no step deadline, even when the document is closed; blue iff there is one and the document is attended or archived; red iff strictly past it; yellow iff less than one day remains; green iff at least one day remains |
| Documents.SemaforoMonotone | gestion/models.py:134-152 | as time passes gray and blue stay, and a green/yellow/red light only moves toward red |
| Forms.ValidateFile | gestion/forms.py:21-26 | a file is refused for size iff it is larger than 5·1024·1024 bytes, and otherwise for format iff its lower-cased name does not end in .pdf/.jpg/.jpeg/.png |
| Forms.ValidateFileIgnoresCase | gestion/forms.py:25 | the verdict does not depend on the letter case of the name |
| Forms.ValidateFileSizeBoundary | gestion/forms.py:23 | exactly 5 MiB is accepted and one byte more is refused |
| Forms.CheckUpload | gestion/forms.py:150-156 | a validated upload field refuses an empty file first, and otherwise gives the validator's verdict; it accepts iff the file is non-empty, at most 5 MiB and has an accepted extension |
| Forms.UploadErrors | gestion/forms.py:76-81 | the intake file is required; given one, the field reports nothing iff the file passes the upload check, and otherwise exactly the refusal reason |
| Forms.LengthErrors | gestion/models.py:116-118 | the sender is refused iff it is longer than 200 characters, and the id iff the submission is internal and the id is longer than 11 characters (an external id that `clean` refused is not checked again) |
| Forms.IntakeErrorsEmpty | gestion/forms.py:28-141 | no error is reported iff the procedure is offered, subject and sender are filled in, the file field, the destination, the `clean` rules and the column widths all report nothing |
| Forms.OfferedProcedures | gestion/forms.py:100-108 | a procedure is offered iff its initiator list is empty or contains the user's role; a profile without a role is offered only the open ones |
| Forms.SenderIdErrors | gestion/forms.py:127-131 | internal submissions skip the id; an external one needs a non-blank id of 8 or 11 digits |
| Forms.SenderIdExamples | gestion/forms.py:127-131 | "ABC" is refused, "12345678" accepted, and an empty id is fine for an internal submission |
| Forms.ExternalLettersRejected | gestion/tests.py:35-42 | an external submission with id "ABC" is refused, whatever its other fields |
| Forms.InternalNeedsNoSenderId | gestion/tests.py:44-55 | an internal submission with an active destination and the other fields in order (a sender of at most 200 characters, a non-empty valid file) is accepted with any id field of at most 11 characters, blank or not a DNI/RUC |
| Forms.LongInternalIdRejected | gestion/models.py:118 | an internal submission whose id field is longer than 11 characters is refused, with the column-width error, although `clean` asks for no id |
| Forms.CleanErrors | gestion/forms.py:119-141 | a destination is demanded iff the procedure is generic at intake or the submission internal and none was chosen, and the id errors are those of the id rule |
| Forms.IntakeValidIff | gestion/forms.py:28-141 | the form is accepted iff the procedure is offered, subject and sender are non-blank, a non-empty valid file is attached, any chosen destination is active, external senders give a DNI/RUC, generic or internal submissions name a destination, the sender has at most 200 characters and the id field at most 11 |
| Forms.TeamOf | gestion/forms.py:196-205 | the ids listed are exactly those of the active profiles of the unit other than the given one |
| Forms.Subordinates | gestion/forms.py:193-208 | the assignable list is the team for a head and empty for an assistant or a profile without a role |
| Forms.DerivationFormValid | gestion/forms.py:143-208 | the derivation form is accepted iff the notes are non-blank, any upload is non-empty and passes the validator, any team member chosen is one of the actor's subordinates, and any free destination is an active profile |
| Forms.RedirectFormValid | gestion/forms.py:224-235 | the redirection form is accepted iff it names an existing profile, active or not, and a non-blank reason |
| Forms.AnnulFormValid | gestion/forms.py:237-248 | the annulment form is accepted iff the reason is non-blank and any supporting file is non-empty; the file is not run through the upload validator |
| Forms.EmptyUploadRejected | gestion/forms.py:76-248 | an empty upload makes the intake, the derivation and the annulment form invalid alike |
| ReadViews.Deviated | gestion/views.py:342-348 | a history is marked as deviated iff some movement's notes contain "[DESVÍO" |
| ReadViews.ScanForDeviation | gestion/views.py:342-348 | the early-exit loop finds a mark iff some movement's notes contain "[DESVÍO" |
| ReadViews.TaggedNotesAreMarked | gestion/views.py:680 | the notes of a forced derivation always contain the marker the scan looks for |
| ReadViews.DeviationPersists | gestion/views.py:342-348 | appending movements never removes a mark |
| ReadViews.DetailRoute | gestion/views.py:350-356 | the detail page lists the catalog steps iff no movement is marked, and nothing otherwise |
| ReadViews.PublicMovements | gestion/views.py:891 | the public lookup lists exactly the movements that are not the creation record, in history order |
| ReadViews.PublicMovementsAppend | gestion/views.py:891 | the filter keeps order: a history in two parts lists the first part's movements, then the second's |
| ReadViews.PublicMovementsSingle | gestion/views.py:891 | a single movement is listed by itself unless it is the creation record |
| ReadViews.PublicRoute | gestion/views.py:893-910 | the public lookup lists no steps for a free-routing procedure, none once a listed movement carries "[DESVÍO", and the catalog steps for an unmarked catalog one |
| ReadViews.PublicShowsWhatDetailShows | gestion/views.py:893-910 | for a catalog procedure, whenever the detail page shows the catalog route so does the public lookup |
| ReadViews.Breakdown | gestion/views.py:376-378 | hours below 24, minutes below 60, and the span is within the last minute of the seconds given |
| ReadViews.BreakdownUnique | gestion/views.py:376-378 | those bounds determine the days/hours/minutes split |
| ReadViews.Quantity | gestion/views.py:379-385 | a quantity reads as its decimal number, a space, then the singular or plural unit word, and nothing else (prefix, suffix and exact length) |
| ReadViews.SpanText | gestion/views.py:383-385 | the text opens with the leading number (days, else hours, else minutes) and a space, and closes with the unit word of the last quantity shown |
| ReadViews.RemainingText | gestion/views.py:379-386 | zero minutes, and only zero minutes, read "Menos de un minuto"; otherwise the text opens with the leading number and a space and closes with the last quantity's unit word |
| ReadViews.RemainingTime | gestion/views.py:364-387 | the countdown is empty and not overdue unless the document is in process with a step deadline; then it has a text and is overdue iff now is past the deadline |
| ReadViews.CountdownAgreesWithSemaforo | gestion/views.py:364-374 | for a document in process the countdown is overdue iff the light is red, and a yellow light means less than one whole day on the countdown |
| ReadViews.WholeDayReadsLessThanAMinute | gestion/views.py:384-387 | a deadline exactly one day away reads "Menos de un minuto" |
| Routing.Record | gestion/models.py:156-188 | writing a movement appends it to the history and changes nothing else |
| Routing.InitialHop | gestion/views.py:147-175 | a chosen destination wins, with the procedure's whole term; otherwise the first holder of catalog step 2's role, with that step's term; otherwise nowhere |
| Routing.Intake | gestion/views.py:114-145 | the document before its first hop: step 1, in process, no deadline, the creation record as its only movement, and the holder as the no-hop branch sets it, the submitter (a hop replaces it) |
| Routing.TakeFirstHop | gestion/views.py:177-206 | without a hop nothing changes; with one the holder, step 2 and both deadlines are set and exactly one derivation movement is written, by the submitter, to the new holder, at step 2 |
| Routing.Submit | gestion/views.py:101-220 | an invalid form changes nothing and draws no number; a valid one yields a document, draws one expediente number and moves no other counter |
| Routing.AssignInternally | gestion/views.py:463-500 | fails iff no team member was chosen; otherwise only the holder changes, to that member, and one internal-assignment movement from the actor to that member at the unchanged step is written |
| Routing.ReturnToHeadOf | gestion/views.py:505-528 | a head cannot return; an assistant returns iff the unit has a head; the head then holds the document and one movement from the actor to the head at the unchanged step is written |
| Routing.FirstMovementTo | gestion/views.py:535 | the position found is that of the oldest movement addressed to the profile; none iff no movement is |
| Routing.StepAfterReturn | gestion/views.py:541-543 | an internal assignment keeps the step; anything else goes back one step, never below 1 |
| Routing.ObserveDoc | gestion/views.py:533-567 | succeeds iff some movement reached the actor and the oldest such one has a sender; then that sender holds it, it is observed, the step follows StepAfterReturn, and the observation movement goes from the actor to that sender at the new step |
| Routing.SendOut | gestion/views.py:572-587 | status external, step clock cleared, holder and step kept, one exit movement by the actor, addressed to no one, at the kept step |
| Routing.ResolveDestination | gestion/views.py:613-640 | the destination priority: a chosen destination on a free or forced route, an abort when forced without one, finishing on a free route without one or past the last catalog step, else the next step's first holder |
| Routing.IssuesResolution | gestion/views.py:597-600 | the current step issues a resolution iff the catalog has a step with the current order and its description contains "Resolución" |
| Routing.CountersAfterAdvance | gestion/views.py:597-600 | a resolution step draws exactly one number of the year's resolution counter; any other step leaves the counters alone |
| Routing.DerivationNotes | gestion/views.py:679-680 | a forced change's notes carry the "[DESVÍO" marker; other notes are kept as written |
| Routing.FinishDoc | gestion/views.py:644-658 | finishing leaves the document attended, unheld and without step clock, and appends one finalization movement by the actor, addressed to no one, at the kept step |
| Routing.RouteDoc | gestion/views.py:661-690 | routing hands the document to the target one step on, in process, with the step deadline the given business days ahead, and appends one derivation movement by the actor to the target at the new step |
| Routing.AdvanceDoc | gestion/views.py:592-705 | the counters after "derive" are those of the resolution draw, whatever the destination rule then decides; a success either finishes (attended, finalization movement by the actor to no one, step kept) or routes (in process, one step on, derivation movement by the actor to the new holder) |
| Routing.Derive | gestion/views.py:400-458 | a non-holder changes nothing; only "derive" may touch the counters; a success needs the holder with a role |
| Routing.Redirect | gestion/views.py:1002-1039 | only the holder may redirect, and succeeds iff the form names an existing profile and a non-blank reason; only the holder changes, to the target, and one redirection movement from the actor to the target at the unchanged step is written |
| Routing.Annul | gestion/views.py:1046-1080 | succeeds iff the actor's role is Mesa de Partes, Secretaría Académica or Dirección General and the form is valid; the document is archived, unheld and without step clock, and one annulment movement by the actor, addressed to no one, at the kept step is written |
| RoutingProps.OnlyHolderActs | gestion/views.py:403-406 | anyone but the holder leaves document and counters as they were, for every action and for redirection |
| RoutingProps.AssignMovesHolderOnly | gestion/views.py:476-489 | internal assignment changes only the holder, keeping step and status, and writes one movement from the actor to the new holder |
| RoutingProps.ReturnMovesHolderOnly | gestion/views.py:505-518 | returning to the head changes only the holder and writes one movement from the actor to the head |
| RoutingProps.RedirectMovesHolderOnly | gestion/views.py:1011-1029 | redirection changes only the holder and writes one movement from the actor to the new holder |
| RoutingProps.AssignmentStaysInTeam | gestion/forms.py:193-205 | a head only assigns to an active member of the unit other than themself; an assistant cannot assign |
| RoutingProps.ObserveReturnsToSender | gestion/views.py:533-567 | "observe" succeeds iff a movement reached the actor and the oldest has a sender; it returns the document to that sender, observed, one step back (floored at 1) unless it was an internal assignment |
| RoutingProps.SubmitterObservesToSelf | gestion/views.py:534-535 | for the submitter the oldest movement is the creation record, so observing sends the document back to the submitter |
| RoutingProps.ExternalStopsClock | gestion/views.py:572-587 | "external" keeps holder and step, sets status external and clears the step deadline |
| RoutingProps.DeriveToChosen | gestion/views.py:619-623 | on a free or forced route a chosen destination gets the document one step on with the procedure's whole term; only a forced change is marked |
| RoutingProps.ForcedWithoutDestinationAborts | gestion/views.py:624-628 | forcing a change without a destination aborts with the document unchanged |
| RoutingProps.ResolutionNumberConsumedOnAbort | gestion/views.py:597-628 | that abort still consumes a resolution number when the step issues a resolution |
| RoutingProps.FreeWithoutDestinationFinishes | gestion/views.py:624-629 | a free route without a destination finishes: attended, no holder, no step clock, step kept |
| RoutingProps.LastCatalogStepFinishes | gestion/views.py:632-633 | on the catalog route, deriving from the last step finishes |
| RoutingProps.CatalogHop | gestion/views.py:634-703 | the catalog route goes to the first holder of the next step's role with a fixed 2-business-day deadline, and aborts when nobody holds the role |
| RoutingProps.CatalogHopStaysInCatalog | gestion/views.py:634-666 | on a catalog numbered 1..N the new step is an entry of the catalog and the new holder has its responsible role |
| RoutingProps.DeriveCountersMonotone | gestion/views.py:597-600 | no action lowers a counter; only "derive" changes one |
| RoutingProps.SubmitRecordsStart | gestion/views.py:114-145 | an accepted submission records the creation movement at step 1, the stripped subject, the access key, the file and the sender (the unit, without DNI/RUC, when internal; the stripped name, type and id otherwise), and a total deadline only if it routed |
| RoutingProps.SubmitIssuesFreshId | gestion/views.py:119 | the new document's id is the expediente code of the year's next number |
| RoutingProps.SubmitToManualDestination | gestion/views.py:152-159 | a chosen destination takes the document to step 2 with the procedure's whole term |
| RoutingProps.SubmitToCatalogStep | gestion/views.py:161-175 | without one, the first holder of catalog step 2's role gets it at step 2 with that step's own term |
| RoutingProps.SubmitStaysWithSubmitter | gestion/views.py:213-217 | with no step 2 or nobody in its role the document stays at step 1 with its submitter, without deadlines |
| RoutingProps.AnnulIgnoresHolder | gestion/views.py:1050-1077 | an authorised role cancels a document someone else holds: archived, no holder, no step clock |
| RoutingProps.AnnulRefusesOtherRoles | gestion/views.py:1050-1054 | any other role, or none, is refused |
| RoutingProps.FirstHopConsistent | gestion/views.py:177-190 | the first hop keeps a freshly created document consistent |
| RoutingProps.SubmitConsistent | gestion/views.py:101-220 | every accepted submission is consistent: step ≥ 1, one leading creation record, a holder exactly while open, a step clock only while in process or observed |
| RoutingProps.AssignWellBehaved | gestion/views.py:476-497 | internal assignment keeps the record fields and the status rules and appends one non-creation movement |
| RoutingProps.ReturnWellBehaved | gestion/views.py:505-528 | so does returning to the head |
| RoutingProps.ObserveWellBehaved | gestion/views.py:533-567 | so does observing, never lowering a positive step below 1 |
| RoutingProps.ExternalWellBehaved | gestion/views.py:572-587 | so does sending out |
| RoutingProps.AdvanceWellBehaved | gestion/views.py:592-705 | so does "derive", whatever the destination rule decides |
| RoutingProps.DeriveEffect | gestion/views.py:456-705 | a successful derivation is well behaved |
| RoutingProps.DerivePreserves | gestion/views.py:400-705 | every successful derivation keeps a consistent document consistent |
| RoutingProps.DeriveKeeps | gestion/views.py:400-705 | a derivation request keeps consistency and the record fields, only extends the history, never reopens a closed document and never lowers a counter |
| RoutingProps.RedirectKeeps | gestion/views.py:1002-1039 | so does a redirection request |
| RoutingProps.AnnulKeeps | gestion/views.py:1046-1080 | so does an annulment request |
| RoutingProps.ApplyKeeps | gestion/views.py:400-1080 | so does any single request |
| RoutingProps.RunKeeps | gestion/views.py:400-1080 | over any sequence of requests, a consistent document stays consistent, its record fields never change, its history only grows, a closed one never reopens and no counter goes down |
| RoutingProps.DeviationIsPermanent | gestion/views.py:342-356 | once a route change is recorded, the detail page never again shows the catalog route |
| Seeding.RoleName | cargar_datos_mpi.py:92-100 | the three generic areas use the area name; heads of Dirección General and Secretaría Académica the bare area name; other heads "Jefe de {area}"; everyone else "Asistente de {area}" |
| Seeding.GenericRoleIgnoresHead | cargar_datos_mpi.py:93-94 | in a generic area the role name does not depend on the head flag |
| Seeding.RecordMembers | cargar_datos_mpi.py:91-108 | visiting an area's members records the area iff some member is a head or the area is generic, with the head's role name, and keeps every other entry |
| Seeding.RoutingRoles | cargar_datos_mpi.py:90-108 | the routing role map has exactly the qualifying areas, each mapped to its head role name |
| Seeding.Responsible | cargar_datos_mpi.py:147-150 | a step's role is the key's routing role, else the Mesa de Partes role; none only when neither exists |
| Seeding.BuildSteps | cargar_datos_mpi.py:146-158 | the steps are built iff every key resolves to a role; they are then numbered first, first+1, … in list order, each with its resolved role, its description and its term |
| Seeding.CreateProcedure | cargar_datos_mpi.py:132-161 | the procedure is produced iff the Mesa de Partes role exists; its steps are numbered 1..N with no gap; a new one takes the given name and term, an existing one keeps its own; Mesa de Partes is added to the roles that may start it |
| Seeding.CreateProcedureIdempotent | cargar_datos_mpi.py:137-139 | seeding a procedure a second time changes nothing |
| Seeding.SeededNextStep | cargar_datos_mpi.py:146-158 | on a seeded procedure the step with order k+1 is list entry k for 0 ≤ k < N and there is none otherwise, so "next step = paso_actual + 1" never skips |
| Text.ContainsIffOccurs | gestion/views.py:410 | the left-to-right scan for `sub in s` agrees with the positional definition, in both directions |
| Text.NatToStringRoundTrip | gestion/views.py:250 | `int(f"{n}")` is n |
| Text.NatToStringWidth | gestion/views.py:250 | a number below 10^k has at most k decimal digits (k ≥ 1) |
| Text.ZeroPadded | gestion/views.py:250 | `f"{n:04d}"` is all digits, exactly four long when n has fewer digits and n's own digits otherwise, and reads back as n |

## Left out

- ORM queries, the listing, search, report and CSV views, URL routing, admin
  registration and the user-creation scripts are database and web plumbing
  with no routing content.
- Notification records and the context processor are fire-and-forget side
  channels. The handlers do not return them.
- PDF and QR rendering (gestion/utils.py) is a foreign library. "derive" takes
  its outcome as a boolean `rendered` parameter, and the stored file name as
  an opaque string.
- `generar_clave_web` draws random characters. Its value is an `accessKey`
  parameter, and `timezone.now()` and the current year are parameters too.
- The consulta page's elapsed-time summary (gestion/views.py:912-936) and
  the lookup query itself (gestion/views.py:878-888) are presentation and
  database filtering. The route it shows is modelled.
- The metadata-edit, audit-log and delete views (gestion/views.py:255-331)
  sit outside the routing engine.
- The fallback of `asignar_interno` that reads a raw POST value when the select
  is empty (gestion/views.py:467-474) is not modelled. The team member is
  whatever the form delivers.
- In creation, the `dias_plazo = 2` branch (gestion/views.py:190-191) cannot
  be reached, because a routed hop is either manual or comes from step 2. It
  has no counterpart.
- Race conditions on the counters and on the holder check are out of scope:
  the model is sequential.
- Durations are integer seconds rather than floats from `total_seconds()`.
- Requisites (`Requisito`) and the requisites JSON shown at intake carry no
  routing information.
- Text handling is ASCII-only:
  - `lower`, `isdigit` and `strip` act on ASCII letters, digits and
    whitespace;
  - non-ASCII digits that Python's `isdigit` accepts are not;
  - there is no Unicode normalisation.
- In the seeding script, the partial writes and `get_or_create` calls that
  merely fill in `es_jefe` are not modelled. A step whose role is missing
  while "Mesa de Partes" is missing too is where the script would crash; the
  model returns `None` there.
- A step whose `rol_responsable` is null in the database cannot arise from
  seeding, and the model gives every step a role name.
- ReadViews.RemainingTime: its contract says only that the text is non-empty.
  The text itself, RemainingText of the absolute distance to the deadline, is
  stated by RemainingText and WholeDayReadsLessThanAMinute.
- ReadViews.RemainingText: its contract pins the zero-minute case, the
  leading number and the closing unit word, not every character of the
  joined text.
- Routing.Submit: its own contract states validity and the counters. The
  document it yields is stated by the RoutingProps Submit lemmas
  (SubmitRecordsStart, SubmitIssuesFreshId, SubmitToManualDestination,
  SubmitToCatalogStep, SubmitStaysWithSubmitter).
- Routing.Derive: its own contract states only the holder gate and the
  counters. The effect of each action is stated by the RoutingProps lemmas
  (OnlyHolderActs through CatalogHopStaysInCatalog, DeriveEffect).
- Routing.AdvanceDoc: its own contract states the counters and the shape of
  a success, not which destination, deadline or abort the rule picks. Those
  are stated by the RoutingProps lemmas on Derive.
- The intake form's read-only `expediente_id` field is not modelled. The view
  overwrites it with the drawn code (gestion/views.py:119). A client that
  posts a value longer than 20 characters, or one already in use, is refused
  by model validation, and the model does not reproduce that refusal.

=== FILE: calendar.dfy ===
/** Business-day arithmetic of `calcular_fecha_limite` (gestion/views.py).

    An instant is a whole number of seconds; its calendar day is
    `t / 86400` and its time of day `t % 86400` (Dafny's division by a
    positive constant floors, like Python's). Day 0 is a Monday, so the
    weekday of a day is `day % 7` with 0 = Monday … 6 = Sunday, the
    numbering of Python's `date.weekday()`. The holidays (`DiaFeriado`
    rows) are a finite set of day numbers. */
module Calendar {

  const SecondsPerDay: int := 86400

  function DayOf(t: int): int {
    t / SecondsPerDay
  }

  function TimeOfDay(t: int): int {
    t % SecondsPerDay
  }

  function Weekday(day: int): int {
    day % 7
  }

  predicate IsWeekend(day: int) {
    Weekday(day) >= 5
  }

  /** A day counts toward a deadline when it is Monday–Friday and not a holiday. */
  predicate IsBusinessDay(day: int, holidays: set<int>) {
    !IsWeekend(day) && day !in holidays
  }

  // ---------------------------------------------------------------------------
  // Why the day-by-day search always stops
  // ---------------------------------------------------------------------------

  /** A day no holiday lies after. */
  ghost function Ceiling(holidays: set<int>): (c: int)
    ensures forall h :: h in holidays ==> h <= c
    decreases |holidays|
  {
    if holidays == {} then 0
    else
      assert exists h :: h in holidays by {
        if forall h :: h !in holidays {
          assert false;
        }
      }
      var h :| h in holidays;
      var rest := holidays - {h};
      var c := Ceiling(rest);
      assert forall k :: k in holidays ==> k == h || k in rest;
      if h > c then h else c
  }

  /** How far a day is below the last holiday. */
  ghost function Gap(day: int, holidays: set<int>): nat {
    if day < Ceiling(holidays) then Ceiling(holidays) - day else 0
  }

  /** Past the last holiday only a weekend can make the next day
      non-working, and then the weekday number grows by one. */
  lemma PastHolidaysOnlyWeekendsBlock(day: int, holidays: set<int>)
    ensures day >= Ceiling(holidays) && !IsBusinessDay(day + 1, holidays)
            ==> Weekday(day + 1) == Weekday(day) + 1
  {
    if day >= Ceiling(holidays) {
      assert day + 1 !in holidays;
    }
  }

  /** A finite holiday set cannot block progress: within a week after the
      later of `day` and the last holiday there is a business day. */
  lemma FiniteHolidaysCannotBlock(day: int, holidays: set<int>)
    ensures exists e :: day < e <= (if day < Ceiling(holidays) then Ceiling(holidays) else day) + 7
                        && IsBusinessDay(e, holidays)
  {
    var m := if day < Ceiling(holidays) then Ceiling(holidays) else day;
    var monday := m + 1 + (7 - (m + 1) % 7) % 7;
    assert Weekday(monday) == 0;
    assert monday !in holidays;
    assert IsBusinessDay(monday, holidays);
  }

  /** The first business day strictly after `day`. */
  function NextBusinessDay(day: int, holidays: set<int>): (e: int)
    ensures day < e && IsBusinessDay(e, holidays)
    ensures forall k :: day < k < e ==> !IsBusinessDay(k, holidays)
    decreases Gap(day, holidays), 7 - Weekday(day)
  {
    if IsBusinessDay(day + 1, holidays) then day + 1
    else
      PastHolidaysOnlyWeekendsBlock(day, holidays);
      NextBusinessDay(day + 1, holidays)
  }

  // ---------------------------------------------------------------------------
  // Counting business days: the reference definition
  // ---------------------------------------------------------------------------

  /** Number of business days in the day interval (lo, hi]. */
  function BusinessDaysBetween(lo: int, hi: int, holidays: set<int>): nat
    decreases hi - lo
  {
    if hi <= lo then 0
    else BusinessDaysBetween(lo, hi - 1, holidays) + (if IsBusinessDay(hi, holidays) then 1 else 0)
  }

  lemma {:induction false} BetweenSplit(lo: int, mid: int, hi: int, holidays: set<int>)
    requires lo <= mid <= hi
    ensures BusinessDaysBetween(lo, hi, holidays)
         == BusinessDaysBetween(lo, mid, holidays) + BusinessDaysBetween(mid, hi, holidays)
    decreases hi - mid
  {
    if hi > mid {
      BetweenSplit(lo, mid, hi - 1, holidays);
    }
  }

  /** An interval with no business day counts zero. */
  lemma {:induction false} BetweenNone(lo: int, hi: int, holidays: set<int>)
    requires forall k :: lo < k <= hi ==> !IsBusinessDay(k, holidays)
    ensures BusinessDaysBetween(lo, hi, holidays) == 0
    decreases hi - lo
  {
    if hi > lo {
      BetweenNone(lo, hi - 1, holidays);
    }
  }

  lemma BetweenMonotone(lo: int, a: int, b: int, holidays: set<int>)
    requires lo <= a <= b
    ensures BusinessDaysBetween(lo, a, holidays) <= BusinessDaysBetween(lo, b, holidays)
  {
    BetweenSplit(lo, a, b, holidays);
  }

  // ---------------------------------------------------------------------------
  // Adding business days
  // ---------------------------------------------------------------------------

  /** The `n`-th business day after `day`: jump from business day to
      business day. */
  function NthBusinessDay(day: int, n: nat, holidays: set<int>): (e: int)
    ensures n == 0 ==> e == day
    ensures n > 0 ==> day < e && IsBusinessDay(e, holidays)
    decreases n
  {
    if n == 0 then day else NthBusinessDay(NextBusinessDay(day, holidays), n - 1, holidays)
  }

  /** Exactly `n` business days lie in (day, n-th business day], and one
      day earlier only `n - 1` do. */
  lemma {:induction false} NthBusinessDayCounts(day: int, n: nat, holidays: set<int>)
    ensures BusinessDaysBetween(day, NthBusinessDay(day, n, holidays), holidays) == n
    ensures n > 0 ==> BusinessDaysBetween(day, NthBusinessDay(day, n, holidays) - 1, holidays) == n - 1
    decreases n
  {
    if n > 0 {
      var e := NextBusinessDay(day, holidays);
      var last := NthBusinessDay(e, n - 1, holidays);
      NthBusinessDayCounts(e, n - 1, holidays);
      BetweenNone(day, e - 1, holidays);
      assert BusinessDaysBetween(day, e, holidays) == 1;
      BetweenSplit(day, e, last, holidays);
      if n > 1 {
        BetweenSplit(day, e, last - 1, holidays);
      }
    } else {
      assert BusinessDaysBetween(day, day, holidays) == 0;
    }
  }

  /** Moving an instant by whole days moves its day and keeps its time of day. */
  lemma DayShift(t: int, k: int)
    ensures DayOf(t + k * SecondsPerDay) == DayOf(t) + k
    ensures TimeOfDay(t + k * SecondsPerDay) == TimeOfDay(t)
  {
    var d := DayOf(t);
    var h := TimeOfDay(t);
    assert t == d * SecondsPerDay + h && 0 <= h < SecondsPerDay;
    assert t + k * SecondsPerDay == (d + k) * SecondsPerDay + h;
  }

  /** The instant `n` business days after `t`, at the same time of day. */
  function AddBusinessDays(t: int, n: nat, holidays: set<int>): (r: int)
    ensures DayOf(r) == NthBusinessDay(DayOf(t), n, holidays)
    ensures n == 0 ==> r == t
    ensures n > 0 ==> t < r && IsBusinessDay(DayOf(r), holidays)
    ensures TimeOfDay(r) == TimeOfDay(t)
  {
    var k := NthBusinessDay(DayOf(t), n, holidays) - DayOf(t);
    DayShift(t, k);
    t + k * SecondsPerDay
  }

  /** Exactly `n` business days lie in (day of `t`, day of the result], and
      the result's day is the `n`-th: one day earlier only `n - 1` lie. */
  lemma AddBusinessDaysCounts(t: int, n: nat, holidays: set<int>)
    ensures DayOf(t) <= DayOf(AddBusinessDays(t, n, holidays))
    ensures BusinessDaysBetween(DayOf(t), DayOf(AddBusinessDays(t, n, holidays)), holidays) == n
    ensures n > 0 ==> BusinessDaysBetween(DayOf(t), DayOf(AddBusinessDays(t, n, holidays)) - 1, holidays) == n - 1
  {
    NthBusinessDayCounts(DayOf(t), n, holidays);
  }

  /** The counting description pins the result down: any instant at the
      same time of day, on a business day, with `n` business days up to and
      including its day, is the one `AddBusinessDays` returns. */
  lemma AddBusinessDaysUnique(t: int, n: nat, holidays: set<int>, other: int)
    requires n > 0
    requires TimeOfDay(other) == TimeOfDay(t) && DayOf(t) <= DayOf(other)
    requires IsBusinessDay(DayOf(other), holidays)
    requires BusinessDaysBetween(DayOf(t), DayOf(other), holidays) == n
    ensures other == AddBusinessDays(t, n, holidays)
  {
    var r := AddBusinessDays(t, n, holidays);
    var d := DayOf(t);
    AddBusinessDaysCounts(t, n, holidays);
    if DayOf(other) < DayOf(r) {
      BetweenMonotone(d, DayOf(other), DayOf(r) - 1, holidays);
      assert false;
    } else if DayOf(other) > DayOf(r) {
      BetweenMonotone(d, DayOf(r), DayOf(other) - 1, holidays);
      assert false;
    }
    assert other == DayOf(other) * SecondsPerDay + TimeOfDay(other);
    assert r == DayOf(r) * SecondsPerDay + TimeOfDay(r);
  }

  /** One iteration of the source loop: stepping a day forward consumes a
      business day exactly when the new day is one; otherwise the business
      day the search is heading for stays the same. */
  lemma DeadlineLoopStep(day: int, k: nat, holidays: set<int>)
    requires k > 0
    ensures IsBusinessDay(day + 1, holidays)
            ==> NthBusinessDay(day + 1, k - 1, holidays) == NthBusinessDay(day, k, holidays)
    ensures !IsBusinessDay(day + 1, holidays)
            ==> NthBusinessDay(day + 1, k, holidays) == NthBusinessDay(day, k, holidays)
                && NextBusinessDay(day + 1, holidays) == NextBusinessDay(day, holidays)
  {
  }

  /** `calcular_fecha_limite` as written: advance one calendar day at a
      time, counting the days that are business days, until `n` are counted. */
  method ComputeDeadline(now: int, n: nat, holidays: set<int>) returns (r: int)
    ensures r == AddBusinessDays(now, n, holidays)
  {
    r := now;
    var added := 0;
    ghost var day := DayOf(now);
    while added < n
      invariant 0 <= added <= n
      invariant r == now + (day - DayOf(now)) * SecondsPerDay
      invariant NthBusinessDay(day, n - added, holidays) == NthBusinessDay(DayOf(now), n, holidays)
      decreases n - added, NextBusinessDay(day, holidays) - day
    {
      DeadlineLoopStep(day, n - added, holidays);
      DayShift(now, day + 1 - DayOf(now));
      r := r + SecondsPerDay;
      day := day + 1;
      if IsBusinessDay(DayOf(r), holidays) {
        added := added + 1;
      }
    }
  }
}

=== FILE: catalog.dfy ===
/** The reference data the routing engine reads (gestion/models.py): roles,
    profiles, procedures and their ordered steps, plus the lookups the
    views perform on them. */
module Catalog {
  import opened Results
  import Text

  /** Profiles are compared by primary key, as Django compares model rows. */
  type ProfileId = nat

  /** `Rol`: the name is unique; `isHead` is `es_jefe`. */
  datatype Role = Role(name: string, isHead: bool)

  /** `PerfilUsuario` with its user's `is_active` flag; the role may be
      missing (the foreign key is nullable). */
  datatype Profile = Profile(id: ProfileId, role: Option<Role>, unit: string, active: bool) {
    predicate HasRole(name: string) {
      role.Some? && role.value.name == name
    }

    /** `perfil.rol.es_jefe` where a missing role reads as "not a head",
        as the database filter `rol__es_jefe=True` reads it. */
    predicate IsHead() {
      role.Some? && role.value.isHead
    }

    /** A head of this unit. */
    predicate HeadsUnit(unit: string) {
      this.unit == unit && IsHead()
    }
  }

  /** The profile with this primary key, if any. */
  function Lookup(directory: seq<Profile>, id: ProfileId): (r: Option<Profile>)
    ensures r.Some? ==> r.value in directory && r.value.id == id
    ensures r.None? <==> forall i :: 0 <= i < |directory| ==> directory[i].id != id
  {
    if |directory| == 0 then None
    else if directory[0].id == id then Some(directory[0])
    else Lookup(directory[1..], id)
  }

  /** `id` is the primary key of a profile whose user is active. */
  predicate IsActive(directory: seq<Profile>, id: ProfileId) {
    exists i :: 0 <= i < |directory| && directory[i].id == id && directory[i].active
  }

  /** `PasoFlujo`: the responsible role is referenced by its unique name. */
  datatype StepDef = StepDef(order: int, description: string, role: string, days: nat)

  /** `Procedimiento`: `steps` are its `PasoFlujo` rows sorted by `orden`;
      `initiators` are the names of the roles in `roles_inician`. */
  datatype Procedure = Procedure(
    code: string,
    name: string,
    totalDays: nat,
    steps: seq<StepDef>,
    initiators: set<string>)

  // ---------------------------------------------------------------------------
  // The step catalog
  // ---------------------------------------------------------------------------

  /** `unique_together = ('procedimiento', 'orden')`. */
  predicate UniqueOrders(steps: seq<StepDef>) {
    forall i, j :: 0 <= i < j < |steps| ==> steps[i].order != steps[j].order
  }

  /** The steps are numbered 1..N in list order with no gap. */
  predicate Dense(steps: seq<StepDef>) {
    forall i :: 0 <= i < |steps| ==> steps[i].order == i + 1
  }

  lemma DenseHasUniqueOrders(steps: seq<StepDef>)
    requires Dense(steps)
    ensures UniqueOrders(steps)
  {
  }

  /** `PasoFlujo.objects.filter(procedimiento=p, orden=k).first()`; with
      unique orders this is also what `.get(...)` returns, `None` standing
      for `DoesNotExist`. */
  function StepAt(steps: seq<StepDef>, order: int): (r: Option<StepDef>)
    ensures r.Some? ==> exists i :: 0 <= i < |steps| && steps[i] == r.value
                          && forall j :: 0 <= j < i ==> steps[j].order != order
    ensures r.Some? ==> r.value in steps && r.value.order == order
    ensures r.None? <==> forall i :: 0 <= i < |steps| ==> steps[i].order != order
  {
    if |steps| == 0 then None
    else if steps[0].order == order then Some(steps[0])
    else
      var rest := StepAt(steps[1..], order);
      if rest.Some? then
        ghost var i :| 0 <= i < |steps| - 1 && steps[1..][i] == rest.value
                       && forall j :: 0 <= j < i ==> steps[1..][j].order != order;
        assert steps[i + 1] == rest.value;
        rest
      else rest
  }

  /** With unique orders the lookup returns the one step carrying the order. */
  lemma {:induction false} StepAtUnique(steps: seq<StepDef>, i: int)
    requires UniqueOrders(steps) && 0 <= i < |steps|
    ensures StepAt(steps, steps[i].order) == Some(steps[i])
    decreases |steps|
  {
    if i > 0 {
      assert steps[0].order != steps[i].order;
      assert UniqueOrders(steps[1..]) by {
        forall a, b | 0 <= a < b < |steps| - 1
          ensures steps[1..][a].order != steps[1..][b].order
        {
          assert steps[1..][a] == steps[a + 1] && steps[1..][b] == steps[b + 1];
        }
      }
      StepAtUnique(steps[1..], i - 1);
    }
  }

  /** On a dense catalog, step `k` is the k-th entry and there is none
      outside 1..N: "the next step is `paso_actual + 1`" is a list index. */
  lemma DenseStepAt(steps: seq<StepDef>, k: int)
    requires Dense(steps)
    ensures StepAt(steps, k) == if 1 <= k <= |steps| then Some(steps[k - 1]) else None
  {
    if 1 <= k <= |steps| {
      StepAtUnique(steps, k - 1);
    }
  }

  // ---------------------------------------------------------------------------
  // Who holds a role
  // ---------------------------------------------------------------------------

  /** `rol.perfilusuario_set.first()`: the first profile, in primary-key
      order, whose role has this name; active or not. */
  function FirstHolder(directory: seq<Profile>, roleName: string): (r: Option<Profile>)
    ensures r.Some? ==> exists i :: 0 <= i < |directory| && directory[i] == r.value
                          && forall j :: 0 <= j < i ==> !directory[j].HasRole(roleName)
    ensures r.Some? ==> r.value.HasRole(roleName)
    ensures r.None? <==> forall i :: 0 <= i < |directory| ==> !directory[i].HasRole(roleName)
  {
    if |directory| == 0 then None
    else if directory[0].HasRole(roleName) then Some(directory[0])
    else
      var rest := FirstHolder(directory[1..], roleName);
      if rest.Some? then
        ghost var i :| 0 <= i < |directory| - 1 && directory[1..][i] == rest.value
                       && forall j :: 0 <= j < i ==> !directory[1..][j].HasRole(roleName);
        assert directory[i + 1] == rest.value;
        rest
      else rest
  }

  /** The unit's head as the derivation view finds it: the first profile,
      in directory (primary-key) order, that belongs to the unit and holds
      a head role. */
  function HeadOf(directory: seq<Profile>, unit: string): (r: Option<Profile>)
    ensures r.Some? ==> exists i :: 0 <= i < |directory| && directory[i] == r.value
                          && forall j :: 0 <= j < i ==> !directory[j].HeadsUnit(unit)
    ensures r.Some? ==> r.value in directory && r.value.unit == unit && r.value.IsHead()
    ensures r.None? <==> forall i :: 0 <= i < |directory| ==> !directory[i].HeadsUnit(unit)
  {
    if |directory| == 0 then None
    else if directory[0].HeadsUnit(unit) then Some(directory[0])
    else
      var rest := HeadOf(directory[1..], unit);
      if rest.Some? then
        ghost var i :| 0 <= i < |directory| - 1 && directory[1..][i] == rest.value
                       && forall j :: 0 <= j < i ==> !directory[1..][j].HeadsUnit(unit);
        assert directory[i + 1] == rest.value;
        rest
      else rest
  }

  // ---------------------------------------------------------------------------
  // Procedure classification and initiation rights
  // ---------------------------------------------------------------------------

  /** Free routing as the derivation view and the public lookup decide it:
      "GEN" in the code or "No TUPA" in the name. */
  predicate IsFreeRouting(p: Procedure) {
    Text.Contains(p.code, "GEN") || Text.Contains(p.name, "No TUPA")
  }

  /** "Generic" as the intake form decides it: "No TUPA" or "Genérico" in
      the name, or "GEN-001" in the code. */
  predicate IsGenericAtIntake(p: Procedure) {
    Text.Contains(p.name, "No TUPA") || Text.Contains(p.name, "Genérico") || Text.Contains(p.code, "GEN-001")
  }

  /** The two tests disagree. A catalog-routed procedure can be generic at
      intake ... */
  lemma GenericAtIntakeButRouted()
    ensures var p := Procedure("PA 40", "Genérico", 30, [], {});
            IsGenericAtIntake(p) && !IsFreeRouting(p)
  {
    var p := Procedure("PA 40", "Genérico", 30, [], {});
    assert Text.IsPrefix("Genérico", p.name);
    Text.AbsentLeadChar(p.code, "GEN");
    Text.AbsentLeadChar(p.name, "No TUPA");
  }

  /** ... and a free-routing one can be non-generic at intake. */
  lemma FreeButNotGenericAtIntake()
    ensures var q := Procedure("GEN-002", "Libre", 30, [], {});
            IsFreeRouting(q) && !IsGenericAtIntake(q)
  {
    var q := Procedure("GEN-002", "Libre", 30, [], {});
    assert q.code[..3] == "GEN";
    Text.AbsentLeadChar(q.name, "No TUPA");
    Text.AbsentLeadChar(q.name, "Genérico");
    Text.ContainsIffOccurs(q.code, "GEN-001");
    assert q.code[0..7][6] == '2';
    assert !Text.OccursAt(q.code, "GEN-001", 0);
    assert forall i :: Text.OccursAt(q.code, "GEN-001", i) ==> i == 0;
  }

  /** Except through the "Genérico" wording, intake-generic procedures are
      free-routing ones. */
  lemma GenericAtIntakeIsMostlyFree(p: Procedure)
    requires IsGenericAtIntake(p) && !Text.Contains(p.name, "Genérico")
    ensures IsFreeRouting(p)
  {
    if Text.Contains(p.code, "GEN-001") {
      Text.ContainsIffOccurs(p.code, "GEN-001");
      var i :| Text.OccursAt(p.code, "GEN-001", i);
      assert p.code[i..i + 3] == "GEN-001"[..3];
      assert Text.OccursAt(p.code, "GEN", i);
      Text.ContainsIffOccurs(p.code, "GEN");
    }
  }

  /** `roles_inician`: empty means anyone may start the procedure;
      otherwise only the listed roles — and a profile without a role only
      the open ones. */
  predicate CanInitiate(p: Procedure, role: Option<Role>) {
    p.initiators == {} || (role.Some? && role.value.name in p.initiators)
  }
}

=== FILE: correlatives.dfy ===
/** Correlative counters (`Correlativo`, gestion/models.py) and the two
    codes built from them: the expediente id of `generar_codigo_expediente`
    and the resolution code of `obtener_siguiente_correlativo`
    (gestion/views.py). The current year is a parameter. */
module Correlatives {
  import opened Results
  import Text

  /** One counter per (year, kind) — `unique_together = ('anio', 'tipo')`;
      a pair without a row reads as 0, the value `get_or_create` gives it. */
  type Counters = map<(int, string), nat>

  const ExpedienteKind: string := "EXPEDIENTE"
  const ResolutionKind: string := "RESOLUCION_DIRECTORAL"

  function Current(c: Counters, year: int, kind: string): nat {
    if (year, kind) in c then c[(year, kind)] else 0
  }

  /** Draw the next number of one counter. */
  datatype Drawn = Drawn(counters: Counters, number: nat)

  function Next(c: Counters, year: int, kind: string): (d: Drawn)
    ensures d.number == Current(c, year, kind) + 1
    ensures Current(d.counters, year, kind) == d.number
    ensures forall y, k :: (y, k) != (year, kind) ==> Current(d.counters, y, k) == Current(c, y, k)
  {
    var n := Current(c, year, kind) + 1;
    Drawn(c[(year, kind) := n], n)
  }

  /** `k` draws in a row, returning the numbers in the order drawn. */
  function DrawMany(c: Counters, year: int, kind: string, k: nat): (Counters, seq<nat>)
    decreases k
  {
    if k == 0 then (c, [])
    else
      var d := Next(c, year, kind);
      var rest := DrawMany(d.counters, year, kind, k - 1);
      (rest.0, [d.number] + rest.1)
  }

  /** Successive draws give consecutive numbers — hence distinct ones — and
      leave every other counter alone. */
  lemma {:induction false} DrawManyConsecutive(c: Counters, year: int, kind: string, k: nat)
    ensures var (c', ns) := DrawMany(c, year, kind, k);
            |ns| == k
            && (forall i :: 0 <= i < k ==> ns[i] == Current(c, year, kind) + i + 1)
            && Current(c', year, kind) == Current(c, year, kind) + k
            && forall y, t :: (y, t) != (year, kind) ==> Current(c', y, t) == Current(c, y, t)
    decreases k
  {
    if k > 0 {
      var d := Next(c, year, kind);
      DrawManyConsecutive(d.counters, year, kind, k - 1);
    }
  }

  // ---------------------------------------------------------------------------
  // Codes
  // ---------------------------------------------------------------------------

  /** `EXP-{year}-{n:04d}`: the prefix, the year, a dash, and the number
      in at least four digits. */
  function ExpedienteCode(year: nat, n: nat): (r: string)
    ensures Text.IsPrefix("EXP-", r)
    ensures |r| == 5 + |Text.NatToString(year)| + Max(4, |Text.NatToString(n)|)
  {
    "EXP-" + Text.NatToString(year) + "-" + Text.ZeroPadded(n, 4)
  }

  /** `RD-{n:04d}-{year}-IESPHVEG`: the number in at least four digits, the
      year, and the institution's suffix. */
  function ResolutionCode(year: nat, n: nat): (r: string)
    ensures Text.IsPrefix("RD-", r) && Text.IsSuffix("-IESPHVEG", r)
    ensures |r| == 13 + |Text.NatToString(year)| + Max(4, |Text.NatToString(n)|)
  {
    "RD-" + Text.ZeroPadded(n, 4) + "-" + Text.NatToString(year) + "-IESPHVEG"
  }

  function Max(a: int, b: int): int {
    if a < b then b else a
  }

  /** The width of `Documento.expediente_id`. */
  const ExpedienteIdWidth: nat := 20

  /** A four-digit year and a number below 10^11 give an id that fits the
      column; the counter has to pass a hundred billion in one year before
      an id no longer does. */
  lemma ExpedienteCodeFitsColumn(year: nat, n: nat)
    requires year < 10000 && n < 100000000000
    ensures |ExpedienteCode(year, n)| <= ExpedienteIdWidth
    ensures |ExpedienteCode(1000, 100000000000)| > ExpedienteIdWidth
  {
    assert Text.Pow10(4) == 10000;
    assert Text.Pow10(11) == 100000000000;
    Text.NatToStringWidth(year, 4);
    Text.NatToStringWidth(n, 11);
    assert |Text.NatToString(100000000000)| == 12;
  }

  /** Reads back an expediente id: `EXP-`, digits, `-`, digits. */
  function ParseExpedienteCode(s: string): (r: Option<(nat, nat)>)
    ensures r.Some? ==> Text.IsPrefix("EXP-", s)
  {
    if !Text.IsPrefix("EXP-", s) then None
    else
      var body := s[4..];
      match Text.IndexOf(body, '-')
      case None => None
      case Some(i) =>
        match (Text.ParseNat(body[..i]), Text.ParseNat(body[i + 1..]))
        case (Some(y), Some(n)) => Some((y, n))
        case _ => None
  }

  lemma ExpedienteCodeRoundTrip(year: nat, n: nat)
    ensures ParseExpedienteCode(ExpedienteCode(year, n)) == Some((year, n))
  {
    var ys := Text.NatToString(year);
    var ns := Text.ZeroPadded(n, 4);
    var s := ExpedienteCode(year, n);
    assert s == "EXP-" + (ys + ['-'] + ns);
    assert s[..4] == "EXP-";
    assert s[4..] == ys + ['-'] + ns;
    Text.IndexOfAfterDigits(ys, '-', ns);
    assert (ys + ['-'] + ns)[..|ys|] == ys;
    assert (ys + ['-'] + ns)[|ys| + 1..] == ns;
    Text.NatToStringRoundTrip(year);
  }

  /** Different (year, number) pairs never share an expediente id. */
  lemma ExpedienteCodeInjective(y1: nat, n1: nat, y2: nat, n2: nat)
    requires ExpedienteCode(y1, n1) == ExpedienteCode(y2, n2)
    ensures y1 == y2 && n1 == n2
  {
    ExpedienteCodeRoundTrip(y1, n1);
    ExpedienteCodeRoundTrip(y2, n2);
  }

  /** Reads back a resolution code: `RD-`, digits, `-`, digits, `-IESPHVEG`. */
  function ParseResolutionCode(s: string): (r: Option<(nat, nat)>)
    ensures r.Some? ==> Text.IsPrefix("RD-", s) && Text.IsSuffix("-IESPHVEG", s)
  {
    if |s| < 12 || !Text.IsPrefix("RD-", s) || !Text.IsSuffix("-IESPHVEG", s) then None
    else
      var body := s[3..|s| - 9];
      match Text.IndexOf(body, '-')
      case None => None
      case Some(i) =>
        match (Text.ParseNat(body[..i]), Text.ParseNat(body[i + 1..]))
        case (Some(n), Some(y)) => Some((y, n))
        case _ => None
  }

  lemma ResolutionCodeRoundTrip(year: nat, n: nat)
    ensures ParseResolutionCode(ResolutionCode(year, n)) == Some((year, n))
  {
    var ys := Text.NatToString(year);
    var ns := Text.ZeroPadded(n, 4);
    var s := ResolutionCode(year, n);
    var body := ns + ['-'] + ys;
    assert s == "RD-" + body + "-IESPHVEG";
    assert s[..3] == "RD-";
    assert s[|s| - 9..] == "-IESPHVEG";
    assert s[3..|s| - 9] == body;
    Text.IndexOfAfterDigits(ns, '-', ys);
    assert body[..|ns|] == ns;
    assert body[|ns| + 1..] == ys;
    Text.NatToStringRoundTrip(year);
  }

  /** Different (year, number) pairs never share a resolution code. */
  lemma ResolutionCodeInjective(y1: nat, n1: nat, y2: nat, n2: nat)
    requires ResolutionCode(y1, n1) == ResolutionCode(y2, n2)
    ensures y1 == y2 && n1 == n2
  {
    ResolutionCodeRoundTrip(y1, n1);
    ResolutionCodeRoundTrip(y2, n2);
  }

  // ---------------------------------------------------------------------------
  // The two generators
  // ---------------------------------------------------------------------------

  /** A drawn code together with the counters after drawing it. */
  datatype Issued = Issued(counters: Counters, code: string)

  /** `generar_codigo_expediente`: draw on the year's EXPEDIENTE counter. */
  function NextExpedienteId(c: Counters, year: nat): (r: Issued)
    ensures Current(r.counters, year, ExpedienteKind) == Current(c, year, ExpedienteKind) + 1
    ensures forall y, k :: (y, k) != (year, ExpedienteKind) ==> Current(r.counters, y, k) == Current(c, y, k)
  {
    var d := Next(c, year, ExpedienteKind);
    Issued(d.counters, ExpedienteCode(year, d.number))
  }

  /** The id drawn reads back as the year and the counter's new value. */
  lemma ExpedienteIdReadsBack(c: Counters, year: nat)
    ensures var r := NextExpedienteId(c, year);
            ParseExpedienteCode(r.code) == Some((year, Current(r.counters, year, ExpedienteKind)))
  {
    ExpedienteCodeRoundTrip(year, Current(c, year, ExpedienteKind) + 1);
  }

  /** `obtener_siguiente_correlativo(tipo)`: draw on the year's counter of
      that kind (by default the directoral-resolution one). */
  function NextResolutionCode(c: Counters, year: nat, kind: string): (r: Issued)
    ensures Current(r.counters, year, kind) == Current(c, year, kind) + 1
    ensures forall y, k :: (y, k) != (year, kind) ==> Current(r.counters, y, k) == Current(c, y, k)
  {
    var d := Next(c, year, kind);
    Issued(d.counters, ResolutionCode(year, d.number))
  }

  /** The code drawn reads back as the year and the counter's new value. */
  lemma ResolutionCodeReadsBack(c: Counters, year: nat, kind: string)
    ensures var r := NextResolutionCode(c, year, kind);
            ParseResolutionCode(r.code) == Some((year, Current(r.counters, year, kind)))
  {
    ResolutionCodeRoundTrip(year, Current(c, year, kind) + 1);
  }

  /** Two expediente ids drawn one after the other differ: the second is
      read back with a larger number. */
  lemma SuccessiveExpedienteIdsDiffer(c: Counters, year: nat)
    ensures var first := NextExpedienteId(c, year);
            var second := NextExpedienteId(first.counters, year);
            first.code != second.code
  {
    var first := NextExpedienteId(c, year);
    ExpedienteIdReadsBack(c, year);
    ExpedienteIdReadsBack(first.counters, year);
  }

  /** Drawing an expediente id never touches a resolution counter, and
      the other way round. */
  lemma GeneratorsAreIndependent(c: Counters, year: nat)
    ensures Current(NextExpedienteId(c, year).counters, year, ResolutionKind) == Current(c, year, ResolutionKind)
    ensures Current(NextResolutionCode(c, year, ResolutionKind).counters, year, ExpedienteKind) == Current(c, year, ExpedienteKind)
  {
  }
}

=== FILE: documents.dfy ===
/** The transactional records of gestion/models.py: a document (`Documento`)
    with its routing state and its own movement history (`Movimiento`), and
    the traffic light derived from its step deadline. */
module Documents {
  import opened Results
  import opened Catalog
  import Calendar

  /** `ESTADO_DOCUMENTO_CHOICES`: exactly five states. */
  datatype Status = InProcess | Observed | External | Attended | Archived {
    /** Finished or cancelled: nobody holds the document any more. */
    predicate IsClosed() {
      this == Attended || this == Archived
    }
  }

  /** `TIPO_MOVIMIENTO_CHOICES`. */
  datatype MovementKind =
    | Start | Derivation | InternalAssignment | Observation
    | ExternalExit | Redirection | Annulment | Finalization

  /** One `Movimiento`: when, from whom to whom, at which step, of which
      kind, with which notes and attached file name. */
  datatype Movement = Movement(
    at: int,
    origin: Option<ProfileId>,
    destination: Option<ProfileId>,
    step: int,
    kind: MovementKind,
    notes: string,
    attachment: Option<string>)

  /** `TIPO_REMITENTE_CHOICES`: natural person (PN) or legal entity (PJ). */
  datatype SenderType = Natural | Juridical

  /** A `Documento`. `history` lists its movements in the order they were
      written, oldest first. `step` is `paso_actual`; both deadlines are
      nullable instants. */
  datatype Document = Document(
    id: string,
    procedure: Procedure,
    subject: string,
    status: Status,
    step: int,
    holder: Option<ProfileId>,
    submittedAt: int,
    stepDeadline: Option<int>,
    totalDeadline: Option<int>,
    sender: string,
    senderType: SenderType,
    senderId: Option<string>,
    attachment: Option<string>,
    accessKey: string,
    history: seq<Movement>)

  // ---------------------------------------------------------------------------
  // The traffic light (`Documento.semaforo`)
  // ---------------------------------------------------------------------------

  datatype Light = Gray | Blue | Red | Yellow | Green

  /** The light shown for a document at instant `now`. */
  function Semaforo(doc: Document, now: int): (l: Light)
    ensures l == Gray <==> doc.stepDeadline.None?
    ensures l == Blue <==> doc.stepDeadline.Some? && doc.status.IsClosed()
    ensures l == Red <==> doc.stepDeadline.Some? && !doc.status.IsClosed() && now > doc.stepDeadline.value
    ensures l == Yellow <==> doc.stepDeadline.Some? && !doc.status.IsClosed()
                             && now <= doc.stepDeadline.value < now + Calendar.SecondsPerDay
    ensures l == Green <==> doc.stepDeadline.Some? && !doc.status.IsClosed()
                            && now + Calendar.SecondsPerDay <= doc.stepDeadline.value
  {
    if doc.stepDeadline.None? then Gray
    else if doc.status.IsClosed() then Blue
    else if now > doc.stepDeadline.value then Red
    else if (doc.stepDeadline.value - now) / Calendar.SecondsPerDay < 1 then Yellow
    else Green
  }

  /** How urgent a light is; gray and blue never change with time. */
  function Urgency(l: Light): nat {
    match l
    case Green => 0
    case Yellow => 1
    case Red => 2
    case _ => 0
  }

  /** As time passes a document's light only moves from green to yellow
      to red, and a gray or blue light stays as it is. */
  lemma SemaforoMonotone(doc: Document, t1: int, t2: int)
    requires t1 <= t2
    ensures Semaforo(doc, t1) in {Gray, Blue} ==> Semaforo(doc, t2) == Semaforo(doc, t1)
    ensures Semaforo(doc, t1) !in {Gray, Blue} ==>
              Semaforo(doc, t2) !in {Gray, Blue}
              && Urgency(Semaforo(doc, t1)) <= Urgency(Semaforo(doc, t2))
  {
  }
}

=== FILE: forms.dfy ===
/** The input checks of gestion/forms.py: the upload validator, the intake
    form (`DocumentoForm`) with its procedure filter and cross-field rules,
    the derivation form (`DerivacionForm`) with its team selector, and the
    redirection and annulment forms. Text fields are stripped of edge
    whitespace before they are checked, as Django's `CharField` does. */
module Forms {
  import opened Results
  import Text
  import opened Catalog
  import opened Documents

  // ---------------------------------------------------------------------------
  // Uploads (`validar_archivo`)
  // ---------------------------------------------------------------------------

  const MaxUploadBytes: nat := 5 * 1024 * 1024

  const AllowedExtensions: seq<string> := [".pdf", ".jpg", ".jpeg", ".png"]

  datatype Upload = Upload(name: string, size: nat)

  /** Why an upload is refused: Django's `FileField` refuses an empty file
      itself; `validar_archivo` refuses the other two. */
  datatype FileError = EmptyFile | TooLarge | UnsupportedFormat

  function EndsWithAny(s: string, suffixes: seq<string>): (b: bool)
    ensures b <==> exists i :: 0 <= i < |suffixes| && Text.IsSuffix(suffixes[i], s)
    decreases |suffixes|
  {
    if |suffixes| == 0 then false
    else
      assert forall i :: 1 <= i < |suffixes| ==> suffixes[1..][i - 1] == suffixes[i];
      Text.IsSuffix(suffixes[0], s) || EndsWithAny(s, suffixes[1..])
  }

  /** The file name ends in one of the accepted extensions, ignoring case. */
  predicate AllowedName(name: string) {
    exists i :: 0 <= i < |AllowedExtensions| && Text.IsSuffix(AllowedExtensions[i], Text.Lower(name))
  }

  /** The size limit is checked first, then the extension. */
  function ValidateFile(f: Upload): (r: Option<FileError>)
    ensures r == Some(TooLarge) <==> f.size > MaxUploadBytes
    ensures r == Some(UnsupportedFormat) <==> f.size <= MaxUploadBytes && !AllowedName(f.name)
    ensures r.None? <==> f.size <= MaxUploadBytes && AllowedName(f.name)
  {
    if f.size > MaxUploadBytes then Some(TooLarge)
    else if !EndsWithAny(Text.Lower(f.name), AllowedExtensions) then Some(UnsupportedFormat)
    else None
  }

  /** A validated upload field: the field refuses an empty file before its
      validator runs, and otherwise reports what `validar_archivo` says. */
  function CheckUpload(f: Upload): (r: Option<FileError>)
    ensures r == Some(EmptyFile) <==> f.size == 0
    ensures r.None? <==> 0 < f.size <= MaxUploadBytes && AllowedName(f.name)
    ensures f.size > 0 ==> r == ValidateFile(f)
  {
    if f.size == 0 then Some(EmptyFile) else ValidateFile(f)
  }

  /** Lower-casing the name leaves the verdict unchanged. */
  lemma ValidateFileIgnoresCase(f: Upload)
    ensures ValidateFile(f.(name := Text.Lower(f.name))) == ValidateFile(f)
  {
    Text.LowerIdempotent(f.name);
  }

  /** A file of exactly 5 MiB passes the size check; one byte more does not. */
  lemma ValidateFileSizeBoundary(name: string)
    ensures ValidateFile(Upload(name, MaxUploadBytes)) != Some(TooLarge)
    ensures ValidateFile(Upload(name, MaxUploadBytes + 1)) == Some(TooLarge)
  {
  }

  // ---------------------------------------------------------------------------
  // The intake form (`DocumentoForm`)
  // ---------------------------------------------------------------------------

  /** The procedures the form offers to a user with this role. */
  function OfferedProcedures(catalog: seq<Procedure>, role: Option<Role>): (r: seq<Procedure>)
    ensures forall p :: p in r <==> p in catalog && CanInitiate(p, role)
    decreases |catalog|
  {
    if |catalog| == 0 then []
    else
      var rest := OfferedProcedures(catalog[1..], role);
      assert forall p :: p in catalog <==> p == catalog[0] || p in catalog[1..];
      if CanInitiate(catalog[0], role) then [catalog[0]] + rest else rest
  }

  /** An intake submission: the chosen procedure, the text fields as typed,
      the optional initial destination (a profile key), the "internal"
      switch and the uploaded file. */
  datatype IntakeForm = IntakeForm(
    procedure: Procedure,
    subject: string,
    sender: string,
    senderType: SenderType,
    senderIdRaw: string,
    destination: Option<ProfileId>,
    internal: bool,
    upload: Option<Upload>)

  datatype IntakeError =
    | ProcedureNotOffered
    | SubjectRequired
    | SenderRequired
    | FileRequired
    | FileRejected(reason: FileError)
    | DestinationNotActive
    | SenderIdRequired
    | SenderIdMalformed
    | DestinationRequired
    | SenderTooLong
    | SenderIdTooLong

  /** The column widths of `Documento` that the model's own validation
      enforces on the cleaned values: `remitente` and
      `identificador_remitente`. */
  const MaxSenderLength: nat := 200
  const MaxSenderIdLength: nat := 11

  /** A DNI has 8 digits, a RUC 11. */
  predicate ValidSenderId(id: string) {
    (|id| == 8 || |id| == 11) && Text.IsDigits(id)
  }

  /** The sender-id rule of `clean`: skipped for internal submissions,
      otherwise the id is required and must be a DNI or a RUC. */
  function SenderIdErrors(internal: bool, raw: string): (e: seq<IntakeError>)
    ensures internal ==> e == []
    ensures !internal && Text.Strip(raw) == "" ==> e == [SenderIdRequired]
    ensures !internal && Text.Strip(raw) != "" ==>
              (e == [] <==> ValidSenderId(Text.Strip(raw)))
              && (e != [] ==> e == [SenderIdMalformed])
  {
    var id := Text.Strip(raw);
    if internal then []
    else if id == "" then [SenderIdRequired]
    else if !(|id| == 8 || |id| == 11) || !Text.IsDigits(id) then [SenderIdMalformed]
    else []
  }

  /** Letters are not an id; eight digits are; an internal submission needs none. */
  lemma SenderIdExamples()
    ensures SenderIdErrors(false, "ABC") == [SenderIdMalformed]
    ensures SenderIdErrors(false, "12345678") == []
    ensures SenderIdErrors(true, "") == []
  {
    Text.StripKeeps("ABC");
    Text.StripKeeps("12345678");
    assert Text.IsDigits("12345678");
  }

  /** The cross-field rules of `clean`, over the values that survived the
      field checks (`None` for a procedure or destination that did not). */
  function CleanErrors(form: IntakeForm, procedure: Option<Procedure>, destination: Option<ProfileId>): (e: seq<IntakeError>)
    ensures (DestinationRequired in e) <==>
              procedure.Some? && (IsGenericAtIntake(procedure.value) || form.internal) && destination.None?
    ensures (SenderIdRequired in e || SenderIdMalformed in e) <==> SenderIdErrors(form.internal, form.senderIdRaw) != []
    ensures e == [] <==> SenderIdErrors(form.internal, form.senderIdRaw) == []
                         && !(procedure.Some? && (IsGenericAtIntake(procedure.value) || form.internal) && destination.None?)
  {
    SenderIdErrors(form.internal, form.senderIdRaw)
    + (if procedure.Some? && (IsGenericAtIntake(procedure.value) || form.internal) && destination.None?
       then [DestinationRequired] else [])
  }

  /** The file field's errors: it is required, and the file must be
      non-empty and pass the validator. */
  function UploadErrors(upload: Option<Upload>): (e: seq<IntakeError>)
    ensures upload.None? ==> e == [FileRequired]
    ensures upload.Some? ==> (e == [] <==> CheckUpload(upload.value).None?)
    ensures upload.Some? && e != [] ==> e == [FileRejected(CheckUpload(upload.value).value)]
  {
    if upload.None? then [FileRequired]
    else match CheckUpload(upload.value)
      case Some(reason) => [FileRejected(reason)]
      case None => []
  }

  /** The length checks of the model's validation, which runs after `clean`
      and skips every field that already has an error: a blank sender, or an
      external id that `clean` refused. */
  function LengthErrors(form: IntakeForm): (e: seq<IntakeError>)
    ensures (SenderTooLong in e) <==> |Text.Strip(form.sender)| > MaxSenderLength
    ensures (SenderIdTooLong in e) <==> form.internal && |Text.Strip(form.senderIdRaw)| > MaxSenderIdLength
    ensures e == [] <==> |Text.Strip(form.sender)| <= MaxSenderLength
                         && (form.internal ==> |Text.Strip(form.senderIdRaw)| <= MaxSenderIdLength)
  {
    var sender := Text.Strip(form.sender);
    var id := Text.Strip(form.senderIdRaw);
    (if sender != "" && |sender| > MaxSenderLength then [SenderTooLong] else [])
    + (if SenderIdErrors(form.internal, form.senderIdRaw) == [] && |id| > MaxSenderIdLength then [SenderIdTooLong] else [])
  }

  /** Every error the intake form reports. */
  function IntakeErrors(form: IntakeForm, catalog: seq<Procedure>, directory: seq<Profile>, role: Option<Role>): seq<IntakeError> {
    var offered := form.procedure in OfferedProcedures(catalog, role);
    var destinationOk := form.destination.None? || IsActive(directory, form.destination.value);
    (if offered then [] else [ProcedureNotOffered])
    + (if Text.Strip(form.subject) == "" then [SubjectRequired] else [])
    + (if Text.Strip(form.sender) == "" then [SenderRequired] else [])
    + UploadErrors(form.upload)
    + (if destinationOk then [] else [DestinationNotActive])
    + CleanErrors(form, if offered then Some(form.procedure) else None, if destinationOk then form.destination else None)
    + LengthErrors(form)
  }

  predicate IntakeValid(form: IntakeForm, catalog: seq<Procedure>, directory: seq<Profile>, role: Option<Role>) {
    IntakeErrors(form, catalog, directory, role) == []
  }

  /** The conditions under which the intake form is accepted, stated
      field by field: an offered procedure, non-blank subject and sender, a
      non-empty attached file that passes the validator, an active
      destination if one is chosen, a DNI or RUC for external senders, a
      destination whenever the procedure is generic or the submission
      internal, and a sender and id that fit their columns. */
  predicate IntakeConditions(form: IntakeForm, catalog: seq<Procedure>, directory: seq<Profile>, role: Option<Role>) {
    && form.procedure in catalog && CanInitiate(form.procedure, role)
    && Text.Strip(form.subject) != "" && Text.Strip(form.sender) != ""
    && form.upload.Some? && form.upload.value.size > 0 && ValidateFile(form.upload.value).None?
    && (form.destination.Some? ==> IsActive(directory, form.destination.value))
    && (!form.internal ==> ValidSenderId(Text.Strip(form.senderIdRaw)))
    && (IsGenericAtIntake(form.procedure) || form.internal ==> form.destination.Some?)
    && |Text.Strip(form.sender)| <= MaxSenderLength
    && |Text.Strip(form.senderIdRaw)| <= MaxSenderIdLength
  }

  /** The error list is empty iff each of its parts is. */
  lemma IntakeErrorsEmpty(form: IntakeForm, catalog: seq<Procedure>, directory: seq<Profile>, role: Option<Role>)
    ensures var offered := form.procedure in OfferedProcedures(catalog, role);
            var destinationOk := form.destination.None? || IsActive(directory, form.destination.value);
            IntakeValid(form, catalog, directory, role) <==>
              && offered && Text.Strip(form.subject) != "" && Text.Strip(form.sender) != ""
              && UploadErrors(form.upload) == [] && destinationOk
              && CleanErrors(form, Some(form.procedure), form.destination) == []
              && LengthErrors(form) == []
  {
    var offered := form.procedure in OfferedProcedures(catalog, role);
    var destinationOk := form.destination.None? || IsActive(directory, form.destination.value);
    var a := (if offered then [] else [ProcedureNotOffered])
             + (if Text.Strip(form.subject) == "" then [SubjectRequired] else [])
             + (if Text.Strip(form.sender) == "" then [SenderRequired] else []);
    var u := UploadErrors(form.upload);
    var d := if destinationOk then [] else [DestinationNotActive];
    var c := CleanErrors(form, if offered then Some(form.procedure) else None, if destinationOk then form.destination else None);
    var l := LengthErrors(form);
    assert IntakeErrors(form, catalog, directory, role) == a + u + d + c + l;
    assert |a + u + d + c + l| == |a| + |u| + |d| + |c| + |l|;
  }

  lemma IntakeValidIff(form: IntakeForm, catalog: seq<Procedure>, directory: seq<Profile>, role: Option<Role>)
    ensures IntakeValid(form, catalog, directory, role) <==> IntakeConditions(form, catalog, directory, role)
  {
    IntakeErrorsEmpty(form, catalog, directory, role);
  }

  /** An internal submission that names an active destination needs no
      DNI/RUC at all: letters, a blank, any id of up to 11 characters is
      accepted in the id field, the other fields being in order. */
  lemma InternalNeedsNoSenderId(form: IntakeForm, catalog: seq<Procedure>, directory: seq<Profile>, role: Option<Role>)
    requires form.internal && form.destination.Some? && IsActive(directory, form.destination.value)
    requires form.procedure in catalog && CanInitiate(form.procedure, role)
    requires Text.Strip(form.subject) != "" && Text.Strip(form.sender) != ""
    requires |Text.Strip(form.sender)| <= MaxSenderLength && |Text.Strip(form.senderIdRaw)| <= MaxSenderIdLength
    requires form.upload.Some? && form.upload.value.size > 0 && ValidateFile(form.upload.value).None?
    ensures IntakeValid(form, catalog, directory, role)
  {
    IntakeValidIff(form, catalog, directory, role);
  }

  /** An external submission whose id has letters is refused, whatever the
      other fields say. */
  lemma ExternalLettersRejected(form: IntakeForm, catalog: seq<Procedure>, directory: seq<Profile>, role: Option<Role>)
    requires !form.internal && form.senderIdRaw == "ABC"
    ensures !IntakeValid(form, catalog, directory, role)
  {
    Text.StripKeeps("ABC");
    assert !Text.IsDigit("ABC"[0]);
    assert !ValidSenderId(Text.Strip(form.senderIdRaw));
    IntakeValidIff(form, catalog, directory, role);
  }

  /** The id column holds 11 characters, internal submission or not: a
      longer id is refused even where `clean` asks for none. */
  lemma LongInternalIdRejected(form: IntakeForm, catalog: seq<Procedure>, directory: seq<Profile>, role: Option<Role>)
    requires form.internal && |Text.Strip(form.senderIdRaw)| > MaxSenderIdLength
    ensures !IntakeValid(form, catalog, directory, role)
    ensures SenderIdTooLong in IntakeErrors(form, catalog, directory, role)
  {
    IntakeValidIff(form, catalog, directory, role);
    var l := LengthErrors(form);
    assert SenderIdTooLong in l;
    assert IntakeErrors(form, catalog, directory, role)[|IntakeErrors(form, catalog, directory, role)| - |l|..] == l;
  }

  // ---------------------------------------------------------------------------
  // The derivation form (`DerivacionForm`) and the exception forms
  // ---------------------------------------------------------------------------

  /** The active profiles of `unit` other than `self`, in directory order. */
  function TeamOf(directory: seq<Profile>, unit: string, self: ProfileId): (r: seq<ProfileId>)
    ensures forall id :: id in r <==>
              id != self && exists i :: 0 <= i < |directory| && directory[i].id == id
                                        && directory[i].unit == unit && directory[i].active
    decreases |directory|
  {
    if |directory| == 0 then []
    else
      var rest := TeamOf(directory[1..], unit, self);
      assert forall i :: 1 <= i < |directory| ==> directory[1..][i - 1] == directory[i];
      var p := directory[0];
      if p.unit == unit && p.active && p.id != self then [p.id] + rest else rest
  }

  /** The team a head may assign work to; empty for everyone else
      (including a profile without a role). */
  function Subordinates(directory: seq<Profile>, actor: Profile): (r: seq<ProfileId>)
    ensures !actor.IsHead() ==> r == []
    ensures actor.IsHead() ==> forall id :: id in r <==>
              id != actor.id && exists i :: 0 <= i < |directory| && directory[i].id == id
                                            && directory[i].unit == actor.unit && directory[i].active
  {
    if actor.IsHead() then TeamOf(directory, actor.unit, actor.id) else []
  }

  /** A derivation submission: notes, optional upload, the team member
      chosen for internal assignment, the free destination and the
      "force route change" check. */
  datatype DerivationForm = DerivationForm(
    notes: string,
    upload: Option<Upload>,
    internalTarget: Option<ProfileId>,
    freeTarget: Option<ProfileId>,
    forced: bool)

  predicate DerivationFormValid(form: DerivationForm, directory: seq<Profile>, actor: Profile) {
    Text.Strip(form.notes) != ""
    && (form.upload.None? || CheckUpload(form.upload.value).None?)
    && (form.internalTarget.None? || form.internalTarget.value in Subordinates(directory, actor))
    && (form.freeTarget.None? || IsActive(directory, form.freeTarget.value))
  }

  /** `RedireccionForm`: any profile, and a reason. */
  datatype RedirectForm = RedirectForm(target: Option<ProfileId>, reason: string)

  predicate RedirectFormValid(form: RedirectForm, directory: seq<Profile>) {
    form.target.Some? && Lookup(directory, form.target.value).Some? && Text.Strip(form.reason) != ""
  }

  /** `AnulacionForm`: a reason and an optional supporting file, which is
      not run through the upload validator but must not be empty. */
  datatype AnnulForm = AnnulForm(reason: string, upload: Option<Upload>)

  predicate AnnulFormValid(form: AnnulForm) {
    Text.Strip(form.reason) != "" && (form.upload.None? || form.upload.value.size > 0)
  }

  /** An empty upload is refused by every form that takes one, whether or
      not the field runs the upload validator. */
  lemma EmptyUploadRejected(intake: IntakeForm, derivation: DerivationForm, annul: AnnulForm,
                            catalog: seq<Procedure>, directory: seq<Profile>, role: Option<Role>, actor: Profile)
    requires intake.upload.Some? && intake.upload.value.size == 0
    requires derivation.upload.Some? && derivation.upload.value.size == 0
    requires annul.upload.Some? && annul.upload.value.size == 0
    ensures !IntakeValid(intake, catalog, directory, role)
    ensures !DerivationFormValid(derivation, directory, actor)
    ensures !AnnulFormValid(annul)
  {
    IntakeValidIff(intake, catalog, directory, role);
  }
}

=== FILE: read_views.dfy ===
/** What the detail page and the public lookup derive from a document
    (gestion/views.py, `detalle_documento` and `consulta_expediente`):
    whether the theoretical route is shown, and the remaining-time text. */
module ReadViews {
  import opened Results
  import Text
  import Calendar
  import opened Catalog
  import opened Documents

  /** The text whose presence in a movement's notes marks a route change. */
  const DeviationMarker: string := "[DESVÍO"

  /** The tag a forced derivation puts in front of its notes. */
  const DeviationTag: string := "[DESVÍO DE RUTA] "

  predicate Deviated(ms: seq<Movement>) {
    exists i :: 0 <= i < |ms| && Text.Contains(ms[i].notes, DeviationMarker)
  }

  /** The scan as the views write it: stop at the first marked movement. */
  method ScanForDeviation(ms: seq<Movement>) returns (found: bool)
    ensures found <==> Deviated(ms)
  {
    found := false;
    var i := 0;
    while i < |ms|
      invariant 0 <= i <= |ms|
      invariant forall j :: 0 <= j < i ==> !Text.Contains(ms[j].notes, DeviationMarker)
    {
      if Text.Contains(ms[i].notes, DeviationMarker) {
        found := true;
        break;
      }
      i := i + 1;
    }
  }

  /** Notes written by a forced derivation always carry the marker. */
  lemma TaggedNotesAreMarked(notes: string)
    ensures Text.Contains(DeviationTag + notes, DeviationMarker)
  {
    Text.MarkerPrefixContained(DeviationMarker, DeviationTag, notes);
  }

  /** Once a marked movement is in the history it stays marked. */
  lemma DeviationPersists(ms: seq<Movement>, more: seq<Movement>)
    requires Deviated(ms)
    ensures Deviated(ms + more)
  {
    var i :| 0 <= i < |ms| && Text.Contains(ms[i].notes, DeviationMarker);
    assert (ms + more)[i] == ms[i];
  }

  /** The steps the detail page lists: the procedure's catalog, or nothing
      once the history shows a route change. */
  function DetailRoute(doc: Document): (r: seq<StepDef>)
    ensures r == [] || r == doc.procedure.steps
    ensures Deviated(doc.history) ==> r == []
    ensures !Deviated(doc.history) ==> r == doc.procedure.steps
  {
    if Deviated(doc.history) then [] else doc.procedure.steps
  }

  /** The movements the public lookup lists: all but the `Start` one, in
      order. */
  function PublicMovements(ms: seq<Movement>): (r: seq<Movement>)
    ensures forall m :: m in r <==> m in ms && m.kind != Start
    ensures |r| <= |ms|
  {
    if |ms| == 0 then []
    else
      var rest := PublicMovements(ms[1..]);
      assert forall m :: m in ms <==> m == ms[0] || m in ms[1..];
      if ms[0].kind == Start then rest else [ms[0]] + rest
  }

  /** The filter keeps the order: listing a history in two parts lists the
      parts one after the other. */
  lemma {:induction false} PublicMovementsAppend(a: seq<Movement>, b: seq<Movement>)
    ensures PublicMovements(a + b) == PublicMovements(a) + PublicMovements(b)
    decreases |a|
  {
    if |a| == 0 {
      assert a + b == b;
    } else {
      assert (a + b)[0] == a[0];
      assert (a + b)[1..] == a[1..] + b;
      PublicMovementsAppend(a[1..], b);
      if a[0].kind != Start {
        assert [a[0]] + (PublicMovements(a[1..]) + PublicMovements(b))
            == ([a[0]] + PublicMovements(a[1..])) + PublicMovements(b);
      }
    }
  }

  /** One movement is listed, by itself, iff it is not the creation record;
      with PublicMovementsAppend this fixes the whole list, order and
      repetitions included. */
  lemma PublicMovementsSingle(m: Movement)
    ensures PublicMovements([m]) == if m.kind == Start then [] else [m]
  {
    assert [m][1..] == [];
  }

  /** The steps the public lookup lists: nothing for a free-routing
      procedure or once a listed movement shows a route change. */
  function PublicRoute(doc: Document): (r: seq<StepDef>)
    ensures r == [] || r == doc.procedure.steps
    ensures IsFreeRouting(doc.procedure) ==> r == []
    ensures Deviated(PublicMovements(doc.history)) ==> r == []
    ensures !IsFreeRouting(doc.procedure) && !Deviated(PublicMovements(doc.history)) ==> r == doc.procedure.steps
  {
    if Deviated(PublicMovements(doc.history)) || IsFreeRouting(doc.procedure) then []
    else doc.procedure.steps
  }

  /** Whenever the detail page shows the catalog route of a procedure that
      is not free-routing, so does the public lookup. */
  lemma PublicShowsWhatDetailShows(doc: Document)
    requires !IsFreeRouting(doc.procedure)
    ensures DetailRoute(doc) == doc.procedure.steps ==> PublicRoute(doc) == doc.procedure.steps
  {
    if !Deviated(doc.history) {
      var pub := PublicMovements(doc.history);
      forall i | 0 <= i < |pub|
        ensures !Text.Contains(pub[i].notes, DeviationMarker)
      {
        assert pub[i] in doc.history;
      }
    }
  }

  // ---------------------------------------------------------------------------
  // Remaining time
  // ---------------------------------------------------------------------------

  datatype Span = Span(days: nat, hours: nat, minutes: nat)

  function SpanSeconds(s: Span): int {
    s.days * Calendar.SecondsPerDay + s.hours * 3600 + s.minutes * 60
  }

  /** Whole days, hours and minutes in a number of seconds. */
  function Breakdown(seconds: nat): (s: Span)
    ensures s.hours < 24 && s.minutes < 60
    ensures SpanSeconds(s) <= seconds < SpanSeconds(s) + 60
  {
    var days := seconds / Calendar.SecondsPerDay;
    var rest := seconds % Calendar.SecondsPerDay;
    assert seconds % 3600 == rest % 3600 by {
      assert seconds == days * 24 * 3600 + rest;
    }
    Span(days, rest / 3600, (seconds % 3600) / 60)
  }

  /** The bounds of `Breakdown` determine it: any span with fewer than 24
      hours and 60 minutes that reaches `seconds` within a minute is the
      breakdown of `seconds`. */
  lemma BreakdownUnique(seconds: nat, s: Span)
    requires s.hours < 24 && s.minutes < 60
    requires SpanSeconds(s) <= seconds < SpanSeconds(s) + 60
    ensures s == Breakdown(seconds)
  {
    var b := Breakdown(seconds);
    var within := s.hours * 3600 + s.minutes * 60;
    assert 0 <= within < Calendar.SecondsPerDay - 59;
    assert s.days == seconds / Calendar.SecondsPerDay;
    assert s.days == b.days;
    assert s.hours * 3600 + s.minutes * 60 <= seconds - s.days * Calendar.SecondsPerDay < s.hours * 3600 + s.minutes * 60 + 60;
    assert s.hours == b.hours;
  }

  /** The singular word for one, the plural for any other count. */
  function UnitWord(n: nat, one: string, many: string): string {
    if n == 1 then one else many
  }

  /** `"1 día"` / `"2 días"` and so on: the number, a space, the word. */
  function Quantity(n: nat, one: string, many: string): (q: string)
    ensures Text.IsPrefix(Text.NatToString(n) + " ", q)
    ensures Text.IsSuffix(UnitWord(n, one, many), q)
    ensures |q| == |Text.NatToString(n)| + 1 + |UnitWord(n, one, many)|
  {
    var head := Text.NatToString(n) + " ";
    var word := UnitWord(n, one, many);
    assert (head + word)[..|head|] == head;
    assert (head + word)[|head|..] == word;
    head + word
  }

  /** Two quantities joined by " y " start as the first and end as the
      second. */
  function Both(a: string, b: string): (r: string)
    ensures forall p :: Text.IsPrefix(p, a) ==> Text.IsPrefix(p, r)
    ensures forall w :: Text.IsSuffix(w, b) ==> Text.IsSuffix(w, r)
  {
    var left := a + " y ";
    forall p | Text.IsPrefix(p, a) ensures Text.IsPrefix(p, left + b) {
      Text.PrefixKept(p, a, " y ");
      Text.PrefixKept(p, left, b);
    }
    forall w | Text.IsSuffix(w, b) ensures Text.IsSuffix(w, left + b) {
      Text.SuffixKept(w, left, b);
    }
    left + b
  }

  const LessThanAMinute: string := "Menos de un minuto"

  /** The number that leads the text: days if any, else hours if any,
      else minutes. */
  function Lead(s: Span): nat {
    if s.days > 0 then s.days else if s.hours > 0 then s.hours else s.minutes
  }

  /** The word that closes the text: the hours' word when there are days,
      the minutes' word otherwise. */
  function LastWord(s: Span): string {
    if s.days > 0 then UnitWord(s.hours, "hora", "horas") else UnitWord(s.minutes, "minuto", "minutos")
  }

  /** The text before the zero-minute override: days and hours when there
      are days, hours and minutes when there are hours, else minutes. */
  function SpanText(s: Span): (t: string)
    ensures Text.IsPrefix(Text.NatToString(Lead(s)) + " ", t)
    ensures Text.IsSuffix(LastWord(s), t)
  {
    if s.days > 0 then Both(Quantity(s.days, "día", "días"), Quantity(s.hours, "hora", "horas"))
    else if s.hours > 0 then Both(Quantity(s.hours, "hora", "horas"), Quantity(s.minutes, "minuto", "minutos"))
    else Quantity(s.minutes, "minuto", "minutos")
  }

  /** The remaining-time text of a span: "Menos de un minuto" exactly when
      the minute count is zero, whatever the days and hours; otherwise it
      opens with the leading number and closes with the last unit's word. */
  function RemainingText(s: Span): (t: string)
    ensures |t| > 0
    ensures t == LessThanAMinute <==> s.minutes == 0
    ensures s.minutes != 0 ==> Text.IsPrefix(Text.NatToString(Lead(s)) + " ", t)
    ensures s.minutes != 0 ==> Text.IsSuffix(LastWord(s), t)
  {
    var t := SpanText(s);
    var digits := Text.NatToString(Lead(s));
    assert t[0] == (digits + " ")[0] == digits[0];
    assert Text.IsDigit(t[0]) && !Text.IsDigit(LessThanAMinute[0]);
    if s.minutes == 0 then LessThanAMinute else t
  }

  datatype Countdown = Countdown(text: string, overdue: bool)

  /** The detail page's countdown: only for a document in process with a
      step deadline; the overdue flag and the absolute distance otherwise. */
  function RemainingTime(doc: Document, now: int): (c: Countdown)
    ensures !(doc.status == InProcess && doc.stepDeadline.Some?) ==> c == Countdown("", false)
    ensures doc.status == InProcess && doc.stepDeadline.Some? ==>
              |c.text| > 0 && (c.overdue <==> doc.stepDeadline.value < now)
  {
    if doc.stepDeadline.Some? && doc.status == InProcess then
      var diff := doc.stepDeadline.value - now;
      var overdue := diff < 0;
      Countdown(RemainingText(Breakdown(if overdue then -diff else diff)), overdue)
    else Countdown("", false)
  }

  /** For a document in process the countdown and the traffic light agree:
      overdue exactly when red, under a day left when yellow, a day or
      more when green. */
  lemma CountdownAgreesWithSemaforo(doc: Document, now: int)
    requires doc.status == InProcess && doc.stepDeadline.Some?
    ensures RemainingTime(doc, now).overdue <==> Semaforo(doc, now) == Red
    ensures Semaforo(doc, now) == Yellow ==> Breakdown(doc.stepDeadline.value - now).days == 0
    ensures Semaforo(doc, now) == Green ==> Breakdown(doc.stepDeadline.value - now).days >= 1
  {
  }

  /** The zero-minute override hides whole days: a deadline exactly one day
      away reads "Menos de un minuto". */
  lemma WholeDayReadsLessThanAMinute(doc: Document, now: int)
    requires doc.status == InProcess && doc.stepDeadline == Some(now + Calendar.SecondsPerDay)
    ensures Breakdown(Calendar.SecondsPerDay).days == 1
    ensures RemainingTime(doc, now) == Countdown(LessThanAMinute, false)
  {
    assert Breakdown(Calendar.SecondsPerDay) == Span(1, 0, 0);
  }
}

=== FILE: results.dfy ===
/** Option and Result values used by every other module in place of Python's
    `None` and of the error branches that end a request handler early. */
module Results {

  datatype Option<+T> = None | Some(value: T)

  /** `Ok` carries the new value; `Err` says why the request was refused and
      means that nothing was written. */
  datatype Result<+T, +E> = Ok(value: T) | Err(error: E)
}

=== FILE: routing.dfy ===
/** The request handlers of gestion/views.py that move a document:
    creation with its automatic first hop (`crear_documento`), the five
    actions of `derivar_documento`, `redireccionar_documento` and
    `anular_documento`. Each is a pure transition from the document (and
    the correlative counters) to a new document or a refusal; a refusal
    writes nothing. The current instant, the calendar year, the holidays
    and the profile directory are parameters, and so is whether the
    resolution PDF could be rendered. */
module Routing {
  import opened Results
  import Text
  import Calendar
  import opened Catalog
  import opened Documents
  import opened Forms
  import Correlatives
  import ReadViews

  /** What a request reads besides the document: the profiles in primary-
      key order, the holidays, the current instant and its year. */
  datatype Env = Env(directory: seq<Profile>, holidays: set<int>, now: int, year: nat)

  /** Why a request left the document as it was. */
  datatype Refusal =
    | InvalidForm
    | NotHolder
    /** The actor's profile has no role. The source has no branch for this:
        reading the missing role's name raises (gestion/views.py:430, 1052),
        the request ends in a server error, and nothing is written. */
    | NoRole
    | NotAuthorized
    | NoTeamMember
    | NoHead
    | NoProvenance
    | ForcedWithoutDestination
    | NoDestination
    | UnknownAction

  /** The step time limit of a catalog hop taken by "derive". */
  const CatalogHopDays: nat := 2

  /** The roles that may cancel a document. */
  const AnnulRoles: set<string> := {"Mesa de Partes", "Secretaría Académica", "Dirección General"}

  /** The description word that makes a step issue a directoral resolution. */
  const ResolutionWord: string := "Resolución"

  // The texts each kind of movement starts its notes with.
  const StartNote: string := "Creación/Recepción de expediente: "
  const ManualHopNote: string := "Envío inicial (Manual)"
  const CatalogHopNote: string := "Derivación automática TUPA."
  const AssignNote: string := "ASIGNACIÓN INTERNA: "
  const ReturnNote: string := "ENTREGA DE TRABAJO (Retorno a Jefatura): "
  const ObserveNote: string := "OBSERVADO/DEVUELTO: "
  const ExternalNote: string := "SALIDA EXTERNA: "
  const RedirectNote: string := "REDIRECCIÓN MANUAL: "
  const AnnulNote: string := "ANULADO: "

  /** The notes of a derivation that issued resolution `code` as a PDF. */
  function ResolutionNotes(code: string, notes: string): string {
    "[" + code + "] Resolución generada automáticamente.\n" + notes
  }

  /** The file name the rendered resolution is stored under. */
  function PdfName(code: string): string {
    code + ".pdf"
  }

  /** `doc` with one more movement at the end of its history. */
  function Record(doc: Document, m: Movement): (r: Document)
    ensures r.history == doc.history + [m]
    ensures r == doc.(history := r.history)
  {
    doc.(history := doc.history + [m])
  }

  /** `after` is `before` with one movement appended: of kind `kind`, made
      by `actor`, addressed to `to`, and recorded at the step `after` is in. */
  predicate AppendsOne(before: Document, after: Document, actor: Profile, kind: MovementKind, to: Option<ProfileId>) {
    |after.history| == |before.history| + 1
    && after.history[..|before.history|] == before.history
    && var m := after.history[|before.history|];
       m.kind == kind && m.origin == Some(actor.id) && m.destination == to && m.step == after.step
  }

  function UploadName(upload: Option<Upload>): Option<string> {
    if upload.Some? then Some(upload.value.name) else None
  }

  // ---------------------------------------------------------------------------
  // Creation
  // ---------------------------------------------------------------------------

  /** Where a new document goes first: the profile, the step's time limit
      in business days, and whether it was chosen by hand. The first hop
      always reaches step 2. */
  datatype FirstHop = FirstHop(holder: ProfileId, days: nat, manual: bool)

  /** The hand-picked destination wins; otherwise catalog step 2 and the
      first holder of its role; otherwise nowhere. */
  function InitialHop(destination: Option<ProfileId>, proc: Procedure, directory: seq<Profile>): (h: Option<FirstHop>)
    ensures destination.Some? ==> h == Some(FirstHop(destination.value, proc.totalDays, true))
    ensures destination.None? ==>
              (h.Some? <==> StepAt(proc.steps, 2).Some? && FirstHolder(directory, StepAt(proc.steps, 2).value.role).Some?)
    ensures destination.None? && h.Some? ==>
              !h.value.manual
              && h.value.days == StepAt(proc.steps, 2).value.days
              && h.value.holder == FirstHolder(directory, StepAt(proc.steps, 2).value.role).value.id
  {
    if destination.Some? then Some(FirstHop(destination.value, proc.totalDays, true))
    else match StepAt(proc.steps, 2)
      case None => None
      case Some(second) =>
        match FirstHolder(directory, second.role)
        case None => None
        case Some(p) => Some(FirstHop(p.id, second.days, false))
  }

  /** The document before its first hop: step 1, in process, without
      deadlines, with the creation record as its only movement, and held by
      the submitter as the no-hop branch leaves it (a hop then overwrites
      the holder). Internal submissions name the submitter's unit as sender
      and carry no DNI/RUC. */
  function Intake(form: IntakeForm, actor: Profile, env: Env, id: string, accessKey: string): (doc: Document)
    ensures doc.step == 1 && doc.status == InProcess && doc.holder == Some(actor.id)
    ensures doc.stepDeadline.None? && doc.totalDeadline.None?
    ensures |doc.history| == 1 && doc.history[0].kind == Start
  {
    var start := Movement(env.now, Some(actor.id), Some(actor.id), 1, Start,
                          StartNote + form.procedure.name, None);
    Document(
      id, form.procedure, Text.Strip(form.subject), InProcess, 1, Some(actor.id), env.now, None, None,
      if form.internal then actor.unit else Text.Strip(form.sender),
      if form.internal then Juridical else form.senderType,
      if form.internal then None else Some(Text.Strip(form.senderIdRaw)),
      UploadName(form.upload), accessKey, [start])
  }

  /** The first hop: hand the document over at step 2, start the step
      clock and the procedure's total one, and record the derivation. */
  function TakeFirstHop(doc: Document, hop: Option<FirstHop>, actor: Profile, env: Env): (r: Document)
    ensures hop.None? ==> r == doc
    ensures hop.Some? ==>
              |r.history| == |doc.history| + 1
              && r == Record(doc.(holder := Some(hop.value.holder), step := 2,
                                  stepDeadline := Some(Calendar.AddBusinessDays(env.now, hop.value.days, env.holidays)),
                                  totalDeadline := Some(Calendar.AddBusinessDays(env.now, doc.procedure.totalDays, env.holidays))),
                             r.history[|doc.history|])
              && AppendsOne(doc, r, actor, Derivation, Some(hop.value.holder))
              && r.step == 2
  {
    match hop
    case None => doc
    case Some(h) =>
      var note := if h.manual then ManualHopNote else CatalogHopNote;
      var routed := doc.(
        holder := Some(h.holder),
        step := 2,
        stepDeadline := Some(Calendar.AddBusinessDays(env.now, h.days, env.holidays)),
        totalDeadline := Some(Calendar.AddBusinessDays(env.now, doc.procedure.totalDays, env.holidays)));
      Record(routed, Movement(env.now, Some(actor.id), Some(h.holder), 2, Derivation, note, None))
  }

  /** A creation request's result and the counters after it. */
  datatype Created = Created(result: Result<Document, seq<IntakeError>>, counters: Correlatives.Counters)

  /** `crear_documento`: validate the form, draw the expediente id, record
      the `Start` movement at step 1, then hop to the first destination if
      there is one, or leave the document with its submitter. */
  function Submit(
    form: IntakeForm, actor: Profile, catalog: seq<Procedure>, env: Env,
    counters: Correlatives.Counters, accessKey: string): (c: Created)
    ensures !IntakeValid(form, catalog, env.directory, actor.role) ==>
              c.result.Err? && c.counters == counters
    ensures IntakeValid(form, catalog, env.directory, actor.role) ==>
              c.result.Ok?
              && Correlatives.Current(c.counters, env.year, Correlatives.ExpedienteKind)
                 == Correlatives.Current(counters, env.year, Correlatives.ExpedienteKind) + 1
              && forall y, k :: (y, k) != (env.year, Correlatives.ExpedienteKind) ==>
                   Correlatives.Current(c.counters, y, k) == Correlatives.Current(counters, y, k)
  {
    if !IntakeValid(form, catalog, env.directory, actor.role) then
      Created(Err(IntakeErrors(form, catalog, env.directory, actor.role)), counters)
    else
      var issued := Correlatives.NextExpedienteId(counters, env.year);
      var doc := Intake(form, actor, env, issued.code, accessKey);
      Created(Ok(TakeFirstHop(doc, InitialHop(form.destination, form.procedure, env.directory), actor, env)),
              issued.counters)
  }

  // ---------------------------------------------------------------------------
  // `derivar_documento`
  // ---------------------------------------------------------------------------

  datatype Action = AssignInternal | ReturnToHead | Observe | SendExternal | Advance | OtherAction

  /** A derivation request's result and the counters after it. */
  datatype Outcome = Outcome(result: Result<Document, Refusal>, counters: Correlatives.Counters)

  /** A head hands the document to a member of the team; step and status stay. */
  function AssignInternally(doc: Document, actor: Profile, target: Option<ProfileId>, notes: string,
                            attachment: Option<string>, now: int): (r: Result<Document, Refusal>)
    ensures target.None? <==> r == Err(NoTeamMember)
    ensures r.Ok? ==> |r.value.history| == |doc.history| + 1
                      && r.value == Record(doc.(holder := target), r.value.history[|doc.history|])
                      && AppendsOne(doc, r.value, actor, InternalAssignment, target)
  {
    match target
    case None => Err(NoTeamMember)
    case Some(t) =>
      Ok(Record(doc.(holder := Some(t)),
                Movement(now, Some(actor.id), Some(t), doc.step, InternalAssignment, AssignNote + notes, attachment)))
  }

  /** An assistant hands the document back to the unit's head; a head
      (who has no head to return to) is refused. */
  function ReturnToHeadOf(doc: Document, actor: Profile, directory: seq<Profile>, notes: string,
                          attachment: Option<string>, now: int): (r: Result<Document, Refusal>)
    ensures actor.IsHead() ==> r == Err(NoHead)
    ensures !actor.IsHead() ==> (r.Ok? <==> HeadOf(directory, actor.unit).Some?)
    ensures r.Ok? ==> r.value.holder == Some(HeadOf(directory, actor.unit).value.id)
                      && |r.value.history| == |doc.history| + 1
                      && r.value == Record(doc.(holder := r.value.holder), r.value.history[|doc.history|])
                      && AppendsOne(doc, r.value, actor, InternalAssignment, r.value.holder)
  {
    if actor.IsHead() then Err(NoHead)
    else match HeadOf(directory, actor.unit)
      case None => Err(NoHead)
      case Some(head) =>
        Ok(Record(doc.(holder := Some(head.id)),
                  Movement(now, Some(actor.id), Some(head.id), doc.step, InternalAssignment,
                           ReturnNote + notes, attachment)))
  }

  /** The position of the movement `observar` looks at: the oldest one
      addressed to `p`. */
  function FirstMovementTo(ms: seq<Movement>, p: ProfileId): (r: Option<nat>)
    ensures r.Some? ==> r.value < |ms| && ms[r.value].destination == Some(p)
    ensures r.Some? ==> forall j :: 0 <= j < r.value ==> ms[j].destination != Some(p)
    ensures r.None? <==> forall j :: 0 <= j < |ms| ==> ms[j].destination != Some(p)
    decreases |ms|
  {
    if |ms| == 0 then None
    else if ms[0].destination == Some(p) then Some(0)
    else match FirstMovementTo(ms[1..], p)
      case None => None
      case Some(k) => Some(k + 1)
  }

  /** The step a returned document goes back to. */
  function StepAfterReturn(step: int, via: MovementKind): (s: int)
    ensures via == InternalAssignment ==> s == step
    ensures via != InternalAssignment && step > 1 ==> s == step - 1
    ensures via != InternalAssignment && step <= 1 ==> s == 1
  {
    if via == InternalAssignment then step else if step - 1 > 1 then step - 1 else 1
  }

  /** Send the document back to whoever sent the movement found by
      `FirstMovementTo`, marking it observed. */
  function ObserveDoc(doc: Document, actor: Profile, notes: string, attachment: Option<string>, now: int): (r: Result<Document, Refusal>)
    ensures r.Err? ==> r == Err(NoProvenance)
    ensures r.Ok? <==> FirstMovementTo(doc.history, actor.id).Some?
                       && doc.history[FirstMovementTo(doc.history, actor.id).value].origin.Some?
    ensures r.Ok? ==>
              var prev := doc.history[FirstMovementTo(doc.history, actor.id).value];
              r.value.holder == prev.origin
              && |r.value.history| == |doc.history| + 1
              && r.value.status == Observed
              && r.value.step == StepAfterReturn(doc.step, prev.kind)
              && r.value == Record(doc.(holder := prev.origin, status := Observed, step := r.value.step),
                                   r.value.history[|doc.history|])
              && AppendsOne(doc, r.value, actor, Observation, prev.origin)
  {
    match FirstMovementTo(doc.history, actor.id)
    case None => Err(NoProvenance)
    case Some(i) =>
      var prev := doc.history[i];
      if prev.origin.None? then Err(NoProvenance)
      else
        var step := StepAfterReturn(doc.step, prev.kind);
        Ok(Record(doc.(holder := prev.origin, status := Observed, step := step),
                  Movement(now, Some(actor.id), prev.origin, step, Observation, ObserveNote + notes, attachment)))
  }

  /** Park the document outside the institution: the step clock stops. */
  function SendOut(doc: Document, actor: Profile, notes: string, attachment: Option<string>, now: int): (r: Document)
    ensures |r.history| == |doc.history| + 1
    ensures r == Record(doc.(status := External, stepDeadline := None), r.history[|doc.history|])
    ensures AppendsOne(doc, r, actor, ExternalExit, None)
  {
    Record(doc.(status := External, stepDeadline := None),
           Movement(now, Some(actor.id), None, doc.step, ExternalExit, ExternalNote + notes, attachment))
  }

  /** Where "derive" sends the document. */
  datatype Decision = RouteTo(target: ProfileId, deviation: bool) | Finish | AbortForced | AbortNoDestination

  /** The destination rule, by priority: a free-routing procedure or a
      forced change takes the chosen destination (a deviation only when
      forced); forced without one aborts; free without one finishes; on the
      catalog route the absence of a next step finishes, and a next step
      whose role nobody holds aborts. */
  function ResolveDestination(free: bool, forced: bool, chosen: Option<ProfileId>,
                              next: Option<StepDef>, directory: seq<Profile>): (d: Decision)
    ensures (free || forced) && chosen.Some? ==> d == RouteTo(chosen.value, forced)
    ensures forced && chosen.None? ==> d == AbortForced
    ensures free && !forced && chosen.None? ==> d == Finish
    ensures !free && !forced && next.None? ==> d == Finish
    ensures !free && !forced && next.Some? ==>
              match FirstHolder(directory, next.value.role)
              case None => d == AbortNoDestination
              case Some(p) => d == RouteTo(p.id, false)
  {
    if free || forced then
      if chosen.Some? then RouteTo(chosen.value, forced)
      else if forced then AbortForced
      else Finish
    else if next.None? then Finish
    else match FirstHolder(directory, next.value.role)
      case None => AbortNoDestination
      case Some(p) => RouteTo(p.id, false)
  }

  /** Whether the current step issues a directoral resolution. */
  predicate IssuesResolution(doc: Document) {
    var current := StepAt(doc.procedure.steps, doc.step);
    current.Some? && Text.Contains(current.value.description, ResolutionWord)
  }

  /** The counters after "derive" has (or has not) drawn a resolution number. */
  function CountersAfterAdvance(doc: Document, year: nat, counters: Correlatives.Counters): (c: Correlatives.Counters)
    ensures IssuesResolution(doc) ==>
              Correlatives.Current(c, year, Correlatives.ResolutionKind)
              == Correlatives.Current(counters, year, Correlatives.ResolutionKind) + 1
    ensures !IssuesResolution(doc) ==> c == counters
    ensures forall y, k :: (y, k) != (year, Correlatives.ResolutionKind) ==>
              Correlatives.Current(c, y, k) == Correlatives.Current(counters, y, k)
  {
    if IssuesResolution(doc) then Correlatives.NextResolutionCode(counters, year, Correlatives.ResolutionKind).counters
    else counters
  }

  /** The notes of a derivation movement: a forced change is tagged, so
      the history records the deviation. */
  function DerivationNotes(text: string, deviation: bool): (r: string)
    ensures deviation ==> Text.Contains(r, ReadViews.DeviationMarker)
    ensures !deviation ==> r == text
  {
    if deviation then
      ReadViews.TaggedNotesAreMarked(text);
      ReadViews.DeviationTag + text
    else text
  }

  /** Close the procedure: attended, nobody holds it, the step clock
      stops, and the finalization is addressed to no one. */
  function FinishDoc(doc: Document, actor: Profile, notes: string, attachment: Option<string>, now: int): (r: Document)
    ensures AppendsOne(doc, r, actor, Finalization, None)
    ensures r == Record(doc.(status := Attended, holder := None, stepDeadline := None), r.history[|doc.history|])
  {
    Record(doc.(status := Attended, holder := None, stepDeadline := None),
           Movement(now, Some(actor.id), None, doc.step, Finalization, notes, attachment))
  }

  /** Hand the document to `target` one step further on, in process, with a
      step deadline `days` business days from now. */
  function RouteDoc(doc: Document, actor: Profile, target: ProfileId, days: nat, notes: string,
                    attachment: Option<string>, env: Env): (r: Document)
    ensures AppendsOne(doc, r, actor, Derivation, Some(target))
    ensures r == Record(doc.(holder := Some(target), step := doc.step + 1, status := InProcess,
                             stepDeadline := Some(Calendar.AddBusinessDays(env.now, days, env.holidays))),
                        r.history[|doc.history|])
  {
    Record(doc.(holder := Some(target), step := doc.step + 1, status := InProcess,
                stepDeadline := Some(Calendar.AddBusinessDays(env.now, days, env.holidays))),
           Movement(env.now, Some(actor.id), Some(target), doc.step + 1, Derivation, notes, attachment))
  }

  /** The "derive" action: draw a resolution number when the step calls for
      one (prefixing the notes and attaching the PDF when it rendered), then
      finish, route or abort as `ResolveDestination` says. The counters
      come back advanced even when the action aborts. */
  function AdvanceDoc(doc: Document, actor: Profile, form: DerivationForm, notes: string,
                      env: Env, counters: Correlatives.Counters, rendered: bool): (o: Outcome)
    ensures o.counters == CountersAfterAdvance(doc, env.year, counters)
    ensures o.result.Ok? ==>
              var after := o.result.value;
              (after.status == Attended && AppendsOne(doc, after, actor, Finalization, None) && after.step == doc.step)
              || (after.status == InProcess && AppendsOne(doc, after, actor, Derivation, after.holder)
                  && after.holder.Some? && after.step == doc.step + 1)
  {
    var issued := Correlatives.NextResolutionCode(counters, env.year, Correlatives.ResolutionKind);
    var withPdf := IssuesResolution(doc) && rendered;
    var text := if withPdf then ResolutionNotes(issued.code, notes) else notes;
    var attachment := if withPdf then Some(PdfName(issued.code)) else UploadName(form.upload);
    var counters' := CountersAfterAdvance(doc, env.year, counters);
    var free := IsFreeRouting(doc.procedure);
    match ResolveDestination(free, form.forced, form.freeTarget, StepAt(doc.procedure.steps, doc.step + 1), env.directory)
    case AbortForced => Outcome(Err(ForcedWithoutDestination), counters')
    case AbortNoDestination => Outcome(Err(NoDestination), counters')
    case Finish => Outcome(Ok(FinishDoc(doc, actor, text, attachment, env.now)), counters')
    case RouteTo(target, deviation) =>
      var days := if free || deviation then doc.procedure.totalDays else CatalogHopDays;
      Outcome(Ok(RouteDoc(doc, actor, target, days, DerivationNotes(text, deviation), attachment, env)), counters')
  }

  /** `derivar_documento`: only the holder may act; a profile without a
      role cannot; the form must be valid; then the chosen action runs. */
  function Derive(doc: Document, actor: Profile, action: Action, form: DerivationForm,
                  env: Env, counters: Correlatives.Counters, rendered: bool): (o: Outcome)
    ensures doc.holder != Some(actor.id) ==> o == Outcome(Err(NotHolder), counters)
    ensures action != Advance ==> o.counters == counters
    ensures o.result.Ok? ==> doc.holder == Some(actor.id) && actor.role.Some?
                             && DerivationFormValid(form, env.directory, actor)
  {
    if doc.holder != Some(actor.id) then Outcome(Err(NotHolder), counters)
    else if actor.role.None? then Outcome(Err(NoRole), counters)
    else if !DerivationFormValid(form, env.directory, actor) then Outcome(Err(InvalidForm), counters)
    else
      var notes := Text.Strip(form.notes);
      var attachment := UploadName(form.upload);
      match action
      case AssignInternal => Outcome(AssignInternally(doc, actor, form.internalTarget, notes, attachment, env.now), counters)
      case ReturnToHead => Outcome(ReturnToHeadOf(doc, actor, env.directory, notes, attachment, env.now), counters)
      case Observe => Outcome(ObserveDoc(doc, actor, notes, attachment, env.now), counters)
      case SendExternal => Outcome(Ok(SendOut(doc, actor, notes, attachment, env.now)), counters)
      case Advance => AdvanceDoc(doc, actor, form, notes, env, counters, rendered)
      case OtherAction => Outcome(Err(UnknownAction), counters)
  }

  // ---------------------------------------------------------------------------
  // Exceptions
  // ---------------------------------------------------------------------------

  /** `redireccionar_documento`: the holder hands the document to any
      profile; step and status stay. */
  function Redirect(doc: Document, actor: Profile, form: RedirectForm, env: Env): (r: Result<Document, Refusal>)
    ensures doc.holder != Some(actor.id) ==> r == Err(NotHolder)
    ensures doc.holder == Some(actor.id) ==> (r.Ok? <==> RedirectFormValid(form, env.directory))
    ensures r.Ok? ==> |r.value.history| == |doc.history| + 1
                      && r.value == Record(doc.(holder := form.target), r.value.history[|doc.history|])
                      && AppendsOne(doc, r.value, actor, Redirection, form.target)
  {
    if doc.holder != Some(actor.id) then Err(NotHolder)
    else if !RedirectFormValid(form, env.directory) then Err(InvalidForm)
    else
      Ok(Record(doc.(holder := form.target),
                Movement(env.now, Some(actor.id), form.target, doc.step, Redirection,
                         RedirectNote + Text.Strip(form.reason), None)))
  }

  /** `anular_documento`: gated on the actor's role only — the holder is
      not checked — it archives the document and stops its clock. */
  function Annul(doc: Document, actor: Profile, form: AnnulForm, env: Env): (r: Result<Document, Refusal>)
    ensures r.Ok? <==> actor.role.Some? && actor.role.value.name in AnnulRoles && AnnulFormValid(form)
    ensures r.Ok? ==> |r.value.history| == |doc.history| + 1
                      && r.value == Record(doc.(status := Archived, holder := None, stepDeadline := None),
                                        r.value.history[|doc.history|])
                      && AppendsOne(doc, r.value, actor, Annulment, None)
  {
    if actor.role.None? then Err(NoRole)
    else if actor.role.value.name !in AnnulRoles then Err(NotAuthorized)
    else if !AnnulFormValid(form) then Err(InvalidForm)
    else
      Ok(Record(doc.(status := Archived, holder := None, stepDeadline := None),
                Movement(env.now, Some(actor.id), None, doc.step, Annulment,
                         AnnulNote + Text.Strip(form.reason), UploadName(form.upload))))
  }
}

=== FILE: routing_props.dfy ===
/** What the routing transitions promise, stated over the model in
    `Routing`: who may act, what each action changes and leaves alone,
    the priority of the derive destination rule, the outcomes of creation,
    and an invariant every request sequence keeps. */
module RoutingProps {
  import opened Results
  import Text
  import Calendar
  import opened Catalog
  import opened Documents
  import opened Forms
  import Correlatives
  import ReadViews
  import opened Routing

  // ---------------------------------------------------------------------------
  // Effects of one action, as predicates over before and after
  // ---------------------------------------------------------------------------

  /** Only the holder changed, and `actor` wrote one movement of `kind`
      addressed to the new holder. */
  predicate MovesHolderOnly(before: Document, after: Document, actor: Profile, kind: MovementKind) {
    AppendsOne(before, after, actor, kind, after.holder)
    && after == before.(holder := after.holder, history := after.history)
  }

  /** The finalization effect: attended, nobody holds it, no step clock,
      the step number kept, and `actor`'s movement addressed to no one. */
  predicate Finished(before: Document, after: Document, actor: Profile) {
    AppendsOne(before, after, actor, Finalization, None)
    && after == before.(status := Attended, holder := None, stepDeadline := None, history := after.history)
    && after.step == before.step
  }

  /** The routing effect: handed by `actor` to `target` one step further
      on, in process, with a step deadline `days` business days from now. */
  predicate Routed(before: Document, after: Document, actor: Profile, target: ProfileId, days: nat, env: Env) {
    AppendsOne(before, after, actor, Derivation, Some(target))
    && after == before.(holder := Some(target), step := before.step + 1, status := InProcess,
                        stepDeadline := Some(Calendar.AddBusinessDays(env.now, days, env.holidays)),
                        history := after.history)
  }

  /** A derivation request passes the gates shared by all five actions. */
  predicate Admitted(doc: Document, actor: Profile, form: DerivationForm, env: Env) {
    doc.holder == Some(actor.id) && actor.role.Some? && DerivationFormValid(form, env.directory, actor)
  }

  // ---------------------------------------------------------------------------
  // The holder gate and holder-only moves
  // ---------------------------------------------------------------------------

  /** Only the holder gets past "derive" and "redirect"; anyone else leaves
      document and counters as they were. */
  lemma OnlyHolderActs(doc: Document, actor: Profile, action: Action, form: DerivationForm,
                       rform: RedirectForm, env: Env, counters: Correlatives.Counters, rendered: bool)
    requires doc.holder != Some(actor.id)
    ensures Derive(doc, actor, action, form, env, counters, rendered) == Outcome(Err(NotHolder), counters)
    ensures Redirect(doc, actor, rform, env) == Err(NotHolder)
  {
  }

  /** Internal assignment changes the holder and nothing else, and writes
      exactly one movement. */
  lemma AssignMovesHolderOnly(doc: Document, actor: Profile, form: DerivationForm, env: Env,
                              counters: Correlatives.Counters, rendered: bool)
    ensures var o := Derive(doc, actor, AssignInternal, form, env, counters, rendered);
            o.result.Ok? ==> MovesHolderOnly(doc, o.result.value, actor, InternalAssignment)
                             && o.result.value.holder == form.internalTarget
                             && o.counters == counters
  {
  }

  /** So does returning the work to the unit's head. */
  lemma ReturnMovesHolderOnly(doc: Document, actor: Profile, form: DerivationForm, env: Env,
                              counters: Correlatives.Counters, rendered: bool)
    ensures var o := Derive(doc, actor, ReturnToHead, form, env, counters, rendered);
            o.result.Ok? ==> MovesHolderOnly(doc, o.result.value, actor, InternalAssignment)
                             && !actor.IsHead()
                             && o.result.value.holder == Some(HeadOf(env.directory, actor.unit).value.id)
                             && o.counters == counters
  {
  }

  /** And so does a manual redirection. */
  lemma RedirectMovesHolderOnly(doc: Document, actor: Profile, form: RedirectForm, env: Env)
    ensures var r := Redirect(doc, actor, form, env);
            r.Ok? ==> MovesHolderOnly(doc, r.value, actor, Redirection) && r.value.holder == form.target
  {
  }

  /** A head may only assign to an active member of the unit other than
      themself; an assistant has no one to assign to. */
  lemma AssignmentStaysInTeam(doc: Document, actor: Profile, form: DerivationForm, env: Env,
                              counters: Correlatives.Counters, rendered: bool)
    ensures var o := Derive(doc, actor, AssignInternal, form, env, counters, rendered);
            o.result.Ok? ==>
              actor.IsHead()
              && o.result.value.holder.Some? && o.result.value.holder.value != actor.id
              && exists i :: 0 <= i < |env.directory| && env.directory[i].id == o.result.value.holder.value
                             && env.directory[i].unit == actor.unit && env.directory[i].active
  {
    var o := Derive(doc, actor, AssignInternal, form, env, counters, rendered);
    if o.result.Ok? {
      assert form.internalTarget.Some? && form.internalTarget.value in Subordinates(env.directory, actor);
    }
  }

  // ---------------------------------------------------------------------------
  // Observe and send out
  // ---------------------------------------------------------------------------

  /** "Observe" succeeds exactly when some movement reached the actor and
      the oldest such one has a sender; it then returns the document to
      that sender, marks it observed, and steps back one (not below 1)
      unless that movement was an internal assignment. */
  lemma ObserveReturnsToSender(doc: Document, actor: Profile, form: DerivationForm, env: Env,
                               counters: Correlatives.Counters, rendered: bool)
    requires Admitted(doc, actor, form, env)
    ensures var o := Derive(doc, actor, Observe, form, env, counters, rendered);
            var found := FirstMovementTo(doc.history, actor.id);
            o.counters == counters
            && (o.result.Ok? <==> found.Some? && doc.history[found.value].origin.Some?)
            && (o.result.Err? ==> o.result.error == NoProvenance)
            && (o.result.Ok? ==>
                  var prev := doc.history[found.value];
                  var after := o.result.value;
                  AppendsOne(doc, after, actor, Observation, prev.origin)
                  && after.holder == prev.origin
                  && after.status == Observed
                  && after.stepDeadline == doc.stepDeadline
                  && (prev.kind == InternalAssignment ==> after.step == doc.step)
                  && (prev.kind != InternalAssignment && doc.step > 1 ==> after.step == doc.step - 1)
                  && (prev.kind != InternalAssignment && doc.step <= 1 ==> after.step == 1))
  {
  }

  /** The movement "observe" answers is the oldest one addressed to the
      actor, so for the submitter that is the creation record, which they
      sent to themself: observing sends the document back to its own
      submitter, however many hops it has made since. */
  lemma SubmitterObservesToSelf(doc: Document, actor: Profile, form: DerivationForm, env: Env,
                                counters: Correlatives.Counters, rendered: bool)
    requires Admitted(doc, actor, form, env)
    requires |doc.history| > 0 && doc.history[0].kind == Start
    requires doc.history[0].origin == Some(actor.id) && doc.history[0].destination == Some(actor.id)
    ensures var o := Derive(doc, actor, Observe, form, env, counters, rendered);
            o.result.Ok? && o.result.value.holder == Some(actor.id)
  {
    assert FirstMovementTo(doc.history, actor.id) == Some(0);
  }

  /** "External" parks the document: the holder and step stay, the status
      becomes external and the step clock stops. */
  lemma ExternalStopsClock(doc: Document, actor: Profile, form: DerivationForm, env: Env,
                           counters: Correlatives.Counters, rendered: bool)
    requires Admitted(doc, actor, form, env)
    ensures var o := Derive(doc, actor, SendExternal, form, env, counters, rendered);
            o.result.Ok? && o.counters == counters
            && AppendsOne(doc, o.result.value, actor, ExternalExit, None)
            && o.result.value == doc.(status := External, stepDeadline := None, history := o.result.value.history)
  {
  }

  // ---------------------------------------------------------------------------
  // The derive destination rule
  // ---------------------------------------------------------------------------

  /** A chosen destination wins on a free-routing procedure or when the
      route change is forced; the deadline is then the procedure's whole
      term, and a forced change marks the history as deviated. */
  lemma DeriveToChosen(doc: Document, actor: Profile, form: DerivationForm, env: Env,
                       counters: Correlatives.Counters, rendered: bool)
    requires Admitted(doc, actor, form, env)
    requires IsFreeRouting(doc.procedure) || form.forced
    requires form.freeTarget.Some?
    ensures var o := Derive(doc, actor, Advance, form, env, counters, rendered);
            o.result.Ok?
            && Routed(doc, o.result.value, actor, form.freeTarget.value, doc.procedure.totalDays, env)
            && (form.forced ==> ReadViews.Deviated(o.result.value.history))
  {
    var o := Derive(doc, actor, Advance, form, env, counters, rendered);
    if form.forced {
      assert Text.Contains(o.result.value.history[|doc.history|].notes, ReadViews.DeviationMarker);
    }
  }

  /** Forcing a route change without naming a destination aborts. */
  lemma ForcedWithoutDestinationAborts(doc: Document, actor: Profile, form: DerivationForm, env: Env,
                                       counters: Correlatives.Counters, rendered: bool)
    requires Admitted(doc, actor, form, env)
    requires form.forced && form.freeTarget.None?
    ensures Derive(doc, actor, Advance, form, env, counters, rendered).result == Err(ForcedWithoutDestination)
  {
  }

  /** The resolution number is drawn before the destination is decided, so
      a forced derivation without destination from a resolution step still
      uses up a number. */
  lemma ResolutionNumberConsumedOnAbort(doc: Document, actor: Profile, form: DerivationForm, env: Env,
                                        counters: Correlatives.Counters, rendered: bool)
    requires Admitted(doc, actor, form, env)
    requires form.forced && form.freeTarget.None?
    requires IssuesResolution(doc)
    ensures var o := Derive(doc, actor, Advance, form, env, counters, rendered);
            o.result.Err?
            && Correlatives.Current(o.counters, env.year, Correlatives.ResolutionKind)
               == Correlatives.Current(counters, env.year, Correlatives.ResolutionKind) + 1
  {
  }

  /** On a free-routing procedure, not forced and without a destination,
      deriving finishes the procedure. */
  lemma FreeWithoutDestinationFinishes(doc: Document, actor: Profile, form: DerivationForm, env: Env,
                                       counters: Correlatives.Counters, rendered: bool)
    requires Admitted(doc, actor, form, env)
    requires IsFreeRouting(doc.procedure) && !form.forced && form.freeTarget.None?
    ensures var o := Derive(doc, actor, Advance, form, env, counters, rendered);
            o.result.Ok? && Finished(doc, o.result.value, actor)
  {
  }

  /** On the catalog route, deriving from the last step finishes. */
  lemma LastCatalogStepFinishes(doc: Document, actor: Profile, form: DerivationForm, env: Env,
                                counters: Correlatives.Counters, rendered: bool)
    requires Admitted(doc, actor, form, env)
    requires !IsFreeRouting(doc.procedure) && !form.forced
    requires StepAt(doc.procedure.steps, doc.step + 1).None?
    ensures var o := Derive(doc, actor, Advance, form, env, counters, rendered);
            o.result.Ok? && Finished(doc, o.result.value, actor)
  {
  }

  /** On the catalog route the document goes to the first holder of the
      next step's role with a fixed two-business-day step deadline — not
      the step's own term — and aborts when nobody holds that role. */
  lemma CatalogHop(doc: Document, actor: Profile, form: DerivationForm, env: Env,
                   counters: Correlatives.Counters, rendered: bool)
    requires Admitted(doc, actor, form, env)
    requires !IsFreeRouting(doc.procedure) && !form.forced
    requires StepAt(doc.procedure.steps, doc.step + 1).Some?
    ensures var o := Derive(doc, actor, Advance, form, env, counters, rendered);
            var holder := FirstHolder(env.directory, StepAt(doc.procedure.steps, doc.step + 1).value.role);
            (holder.None? ==> o.result == Err(NoDestination))
            && (holder.Some? ==> o.result.Ok? && Routed(doc, o.result.value, actor, holder.value.id, CatalogHopDays, env))
  {
  }

  /** On a catalog numbered 1..N, a catalog hop never leaves the catalog:
      the new step is one of its entries and its responsible role is the
      one the new holder has. */
  lemma CatalogHopStaysInCatalog(doc: Document, actor: Profile, form: DerivationForm, env: Env,
                                 counters: Correlatives.Counters, rendered: bool)
    requires Admitted(doc, actor, form, env)
    requires Dense(doc.procedure.steps) && doc.step >= 1
    requires !IsFreeRouting(doc.procedure) && !form.forced
    ensures var o := Derive(doc, actor, Advance, form, env, counters, rendered);
            o.result.Ok? && o.result.value.status == InProcess ==>
              var after := o.result.value;
              2 <= after.step <= |doc.procedure.steps|
              && after.holder.Some?
              && exists i :: 0 <= i < |env.directory| && env.directory[i].id == after.holder.value
                             && env.directory[i].HasRole(doc.procedure.steps[after.step - 1].role)
  {
    var steps := doc.procedure.steps;
    DenseStepAt(steps, doc.step + 1);
    if StepAt(steps, doc.step + 1).Some? {
      CatalogHop(doc, actor, form, env, counters, rendered);
    } else {
      LastCatalogStepFinishes(doc, actor, form, env, counters, rendered);
    }
  }

  /** Whatever action runs, the counters only change through the
      resolution draw of "derive", and never go down. */
  lemma DeriveCountersMonotone(doc: Document, actor: Profile, action: Action, form: DerivationForm,
                               env: Env, counters: Correlatives.Counters, rendered: bool)
    ensures var o := Derive(doc, actor, action, form, env, counters, rendered);
            forall y, k :: Correlatives.Current(counters, y, k) <= Correlatives.Current(o.counters, y, k)
  {
  }

  // ---------------------------------------------------------------------------
  // Creation
  // ---------------------------------------------------------------------------

  /** The creation record every new document starts with. */
  function StartMovement(form: IntakeForm, actor: Profile, env: Env): Movement {
    Movement(env.now, Some(actor.id), Some(actor.id), 1, Start,
             StartNote + form.procedure.name, None)
  }

  /** What every accepted submission records, wherever it goes next: the
      creation movement at step 1, the stripped subject, the access key,
      the file, who sent it (the submitter's unit for internal ones, with
      no DNI/RUC; the stripped name, type and id as entered otherwise) and,
      only if the document was routed, the total deadline. */
  lemma SubmitRecordsStart(form: IntakeForm, actor: Profile, catalog: seq<Procedure>, env: Env,
                           counters: Correlatives.Counters, accessKey: string)
    requires IntakeValid(form, catalog, env.directory, actor.role)
    ensures var doc := Submit(form, actor, catalog, env, counters, accessKey).result.value;
            1 <= |doc.history| <= 2
            && doc.history[0] == StartMovement(form, actor, env)
            && doc.procedure == form.procedure && doc.submittedAt == env.now
            && doc.subject == Text.Strip(form.subject) && doc.accessKey == accessKey
            && form.upload.Some? && doc.attachment == Some(form.upload.value.name)
            && (form.internal ==> doc.sender == actor.unit && doc.senderType == Juridical && doc.senderId.None?)
            && (!form.internal ==> doc.sender == Text.Strip(form.sender) && doc.senderType == form.senderType
                                   && doc.senderId == Some(Text.Strip(form.senderIdRaw))
                                   && ValidSenderId(doc.senderId.value))
            && (doc.totalDeadline.Some? <==> |doc.history| == 2)
            && (doc.totalDeadline.Some? ==>
                  doc.totalDeadline == Some(Calendar.AddBusinessDays(env.now, form.procedure.totalDays, env.holidays)))
  {
    IntakeValidIff(form, catalog, env.directory, actor.role);
  }

  /** The new document's id is the expediente code of the year's next
      number. */
  lemma SubmitIssuesFreshId(form: IntakeForm, actor: Profile, catalog: seq<Procedure>, env: Env,
                            counters: Correlatives.Counters, accessKey: string)
    requires IntakeValid(form, catalog, env.directory, actor.role)
    ensures var c := Submit(form, actor, catalog, env, counters, accessKey);
            Correlatives.ParseExpedienteCode(c.result.value.id)
            == Some((env.year, Correlatives.Current(c.counters, env.year, Correlatives.ExpedienteKind)))
  {
    Correlatives.ExpedienteIdReadsBack(counters, env.year);
  }

  /** A hand-picked destination takes the document to step 2 with the
      procedure's whole term as its step deadline. */
  lemma SubmitToManualDestination(form: IntakeForm, actor: Profile, catalog: seq<Procedure>, env: Env,
                                  counters: Correlatives.Counters, accessKey: string)
    requires IntakeValid(form, catalog, env.directory, actor.role)
    requires form.destination.Some?
    ensures var doc := Submit(form, actor, catalog, env, counters, accessKey).result.value;
            var deadline := Calendar.AddBusinessDays(env.now, form.procedure.totalDays, env.holidays);
            doc.holder == form.destination && doc.step == 2 && doc.status == InProcess
            && doc.stepDeadline == Some(deadline) && doc.totalDeadline == Some(deadline)
            && |doc.history| == 2 && doc.history[1].kind == Derivation
            && doc.history[1].destination == form.destination
  {
  }

  /** Without one, catalog step 2 decides: the first holder of its role
      gets the document, with that step's own term. */
  lemma SubmitToCatalogStep(form: IntakeForm, actor: Profile, catalog: seq<Procedure>, env: Env,
                            counters: Correlatives.Counters, accessKey: string)
    requires IntakeValid(form, catalog, env.directory, actor.role)
    requires form.destination.None?
    requires StepAt(form.procedure.steps, 2).Some?
    requires FirstHolder(env.directory, StepAt(form.procedure.steps, 2).value.role).Some?
    ensures var doc := Submit(form, actor, catalog, env, counters, accessKey).result.value;
            var second := StepAt(form.procedure.steps, 2).value;
            doc.holder == Some(FirstHolder(env.directory, second.role).value.id)
            && doc.step == 2 && doc.status == InProcess
            && doc.stepDeadline == Some(Calendar.AddBusinessDays(env.now, second.days, env.holidays))
            && |doc.history| == 2 && doc.history[1].kind == Derivation
  {
  }

  /** With no step 2, or nobody holding its role, the document stays at
      step 1 with its submitter and no deadline — which the intake form
      only allows for an external, non-generic submission. */
  lemma SubmitStaysWithSubmitter(form: IntakeForm, actor: Profile, catalog: seq<Procedure>, env: Env,
                                 counters: Correlatives.Counters, accessKey: string)
    requires IntakeValid(form, catalog, env.directory, actor.role)
    requires form.destination.None?
    requires StepAt(form.procedure.steps, 2).None?
             || FirstHolder(env.directory, StepAt(form.procedure.steps, 2).value.role).None?
    ensures var doc := Submit(form, actor, catalog, env, counters, accessKey).result.value;
            doc.holder == Some(actor.id) && doc.step == 1 && doc.status == InProcess
            && doc.stepDeadline.None? && doc.totalDeadline.None?
            && doc.history == [StartMovement(form, actor, env)]
    ensures !form.internal && !IsGenericAtIntake(form.procedure)
  {
    IntakeValidIff(form, catalog, env.directory, actor.role);
  }

  // ---------------------------------------------------------------------------
  // Annulment
  // ---------------------------------------------------------------------------

  /** Cancelling checks the role, not who holds the document: an authorised
      role cancels a document someone else holds, and the document is
      archived with nobody holding it and no step clock. */
  lemma AnnulIgnoresHolder(doc: Document, actor: Profile, form: AnnulForm, env: Env)
    requires doc.holder != Some(actor.id)
    requires actor.role.Some? && actor.role.value.name in AnnulRoles && AnnulFormValid(form)
    ensures var r := Annul(doc, actor, form, env);
            r.Ok? && AppendsOne(doc, r.value, actor, Annulment, None)
            && r.value.status == Archived && r.value.holder.None? && r.value.stepDeadline.None?
            && r.value.step == doc.step
  {
  }

  /** Any other role, or none, is refused. */
  lemma AnnulRefusesOtherRoles(doc: Document, actor: Profile, form: AnnulForm, env: Env)
    requires actor.role.None? || actor.role.value.name !in AnnulRoles
    ensures Annul(doc, actor, form, env).Err?
    ensures actor.role.Some? ==> Annul(doc, actor, form, env) == Err(NotAuthorized)
  {
  }

  // ---------------------------------------------------------------------------
  // An invariant every request sequence keeps
  // ---------------------------------------------------------------------------

  /** The shape every document has from creation on: a step of at least 1;
      a history that starts with the one creation record; a holder exactly
      while the document is open; and a running step clock only while it
      is in process or observed. */
  predicate Consistent(doc: Document) {
    && doc.step >= 1
    && StartsOnce(doc.history)
    && StatusRules(doc)
  }

  /** A holder exactly while the document is open, and a running step
      clock only while it is in process or observed. */
  predicate StatusRules(doc: Document) {
    (doc.status.IsClosed() <==> doc.holder.None?)
    && (doc.stepDeadline.Some? ==> doc.status == InProcess || doc.status == Observed)
  }

  /** Only the routing state — holder, step, status, step deadline and
      history — differs between `before` and `after`. */
  predicate SameRecord(before: Document, after: Document) {
    after == before.(holder := after.holder, step := after.step, status := after.status,
                     stepDeadline := after.stepDeadline, history := after.history)
  }

  /** The creation record comes first and only first. */
  predicate StartsOnce(h: seq<Movement>) {
    |h| > 0 && h[0].kind == Start && forall i :: 0 < i < |h| ==> h[i].kind != Start
  }

  /** Appending one movement that is not a creation record keeps the
      creation record first and only first. */
  lemma AppendKeepsStartsOnce(before: Document, after: Document)
    requires StartsOnce(before.history)
    requires |after.history| == |before.history| + 1 && after.history[..|before.history|] == before.history
    requires after.history[|before.history|].kind != Start
    ensures StartsOnce(after.history)
  {
    var n := |before.history|;
    forall i | 0 < i < |after.history|
      ensures after.history[i].kind != Start
    {
      if i < n {
        assert after.history[i] == after.history[..n][i];
      }
    }
    assert after.history[0] == after.history[..n][0];
  }

  /** The first hop keeps a freshly created document consistent. */
  lemma FirstHopConsistent(doc: Document, hop: Option<FirstHop>, actor: Profile, env: Env)
    requires Consistent(doc) && doc.status == InProcess
    ensures Consistent(TakeFirstHop(doc, hop, actor, env))
  {
    if hop.Some? {
      var r := TakeFirstHop(doc, hop, actor, env);
      assert r.history[..|doc.history|] == doc.history;
      AppendKeepsStartsOnce(doc, r);
    }
  }

  /** Every accepted submission is consistent. */
  lemma SubmitConsistent(form: IntakeForm, actor: Profile, catalog: seq<Procedure>, env: Env,
                         counters: Correlatives.Counters, accessKey: string)
    ensures var c := Submit(form, actor, catalog, env, counters, accessKey);
            c.result.Ok? ==> Consistent(c.result.value)
  {
    if IntakeValid(form, catalog, env.directory, actor.role) {
      var issued := Correlatives.NextExpedienteId(counters, env.year);
      var doc := Intake(form, actor, env, issued.code, accessKey);
      FirstHopConsistent(doc, InitialHop(form.destination, form.procedure, env.directory), actor, env);
    }
  }

  /** What every successful derivation does to the document: keeps the
      record, appends one movement that is not a creation record, keeps
      the status rules, and never lowers a positive step below 1. */
  predicate WellBehaved(doc: Document, after: Document) {
    SameRecord(doc, after)
    && |after.history| == |doc.history| + 1
    && after.history[..|doc.history|] == doc.history
    && after.history[|doc.history|].kind != Start
    && (StatusRules(doc) ==> StatusRules(after))
    && (doc.step >= 1 ==> after.step >= 1)
  }

  lemma AssignWellBehaved(doc: Document, actor: Profile, form: DerivationForm,
                          env: Env, counters: Correlatives.Counters, rendered: bool)
    ensures var o := Derive(doc, actor, AssignInternal, form, env, counters, rendered);
            o.result.Ok? ==> WellBehaved(doc, o.result.value)
  {
    AssignMovesHolderOnly(doc, actor, form, env, counters, rendered);
  }

  lemma ReturnWellBehaved(doc: Document, actor: Profile, form: DerivationForm,
                          env: Env, counters: Correlatives.Counters, rendered: bool)
    ensures var o := Derive(doc, actor, ReturnToHead, form, env, counters, rendered);
            o.result.Ok? ==> WellBehaved(doc, o.result.value)
  {
    ReturnMovesHolderOnly(doc, actor, form, env, counters, rendered);
  }

  lemma ObserveWellBehaved(doc: Document, actor: Profile, form: DerivationForm,
                           env: Env, counters: Correlatives.Counters, rendered: bool)
    ensures var o := Derive(doc, actor, Observe, form, env, counters, rendered);
            o.result.Ok? ==> WellBehaved(doc, o.result.value)
  {
    var o := Derive(doc, actor, Observe, form, env, counters, rendered);
    if o.result.Ok? {
      ObserveReturnsToSender(doc, actor, form, env, counters, rendered);
    }
  }

  lemma ExternalWellBehaved(doc: Document, actor: Profile, form: DerivationForm,
                            env: Env, counters: Correlatives.Counters, rendered: bool)
    ensures var o := Derive(doc, actor, SendExternal, form, env, counters, rendered);
            o.result.Ok? ==> WellBehaved(doc, o.result.value)
  {
    var o := Derive(doc, actor, SendExternal, form, env, counters, rendered);
    if o.result.Ok? {
      ExternalStopsClock(doc, actor, form, env, counters, rendered);
    }
  }

  /** The "derive" action proper is well behaved, whatever the destination
      rule decides. */
  lemma AdvanceDocWellBehaved(doc: Document, actor: Profile, form: DerivationForm, notes: string,
                              env: Env, counters: Correlatives.Counters, rendered: bool)
    ensures var o := AdvanceDoc(doc, actor, form, notes, env, counters, rendered);
            o.result.Ok? ==> WellBehaved(doc, o.result.value)
  {
  }

  lemma AdvanceWellBehaved(doc: Document, actor: Profile, form: DerivationForm,
                           env: Env, counters: Correlatives.Counters, rendered: bool)
    ensures var o := Derive(doc, actor, Advance, form, env, counters, rendered);
            o.result.Ok? ==> WellBehaved(doc, o.result.value)
  {
    AdvanceDocWellBehaved(doc, actor, form, Text.Strip(form.notes), env, counters, rendered);
  }

  lemma DeriveEffect(doc: Document, actor: Profile, action: Action, form: DerivationForm,
                     env: Env, counters: Correlatives.Counters, rendered: bool)
    ensures var o := Derive(doc, actor, action, form, env, counters, rendered);
            o.result.Ok? ==> WellBehaved(doc, o.result.value)
  {
    match action
    case AssignInternal => AssignWellBehaved(doc, actor, form, env, counters, rendered);
    case ReturnToHead => ReturnWellBehaved(doc, actor, form, env, counters, rendered);
    case Observe => ObserveWellBehaved(doc, actor, form, env, counters, rendered);
    case SendExternal => ExternalWellBehaved(doc, actor, form, env, counters, rendered);
    case Advance => AdvanceWellBehaved(doc, actor, form, env, counters, rendered);
    case OtherAction =>
  }

  /** Every successful derivation keeps the invariant. */
  lemma DerivePreserves(doc: Document, actor: Profile, action: Action, form: DerivationForm,
                        env: Env, counters: Correlatives.Counters, rendered: bool)
    requires Consistent(doc)
    ensures var o := Derive(doc, actor, action, form, env, counters, rendered);
            o.result.Ok? ==> Consistent(o.result.value)
  {
    var o := Derive(doc, actor, action, form, env, counters, rendered);
    DeriveEffect(doc, actor, action, form, env, counters, rendered);
    if o.result.Ok? {
      var after := o.result.value;
      AppendKeepsStartsOnce(doc, after);
    }
  }

  /** One request against the document, as the URL dispatcher routes it. */
  datatype Request =
    | DeriveRequest(actor: Profile, action: Action, form: DerivationForm, rendered: bool)
    | RedirectRequest(actor: Profile, redirect: RedirectForm)
    | AnnulRequest(actor: Profile, annul: AnnulForm)

  datatype Call = Call(request: Request, env: Env)

  /** A document and the correlative counters. */
  datatype State = State(doc: Document, counters: Correlatives.Counters)

  /** Serve one request; a refusal keeps the document. */
  function Apply(s: State, c: Call): State {
    match c.request
    case DeriveRequest(actor, action, form, rendered) =>
      var o := Derive(s.doc, actor, action, form, c.env, s.counters, rendered);
      State(if o.result.Ok? then o.result.value else s.doc, o.counters)
    case RedirectRequest(actor, f) =>
      var r := Redirect(s.doc, actor, f, c.env);
      State(if r.Ok? then r.value else s.doc, s.counters)
    case AnnulRequest(actor, f) =>
      var r := Annul(s.doc, actor, f, c.env);
      State(if r.Ok? then r.value else s.doc, s.counters)
  }

  /** Serve the requests in order. */
  function Run(s: State, calls: seq<Call>): State
    decreases |calls|
  {
    if |calls| == 0 then s else Run(Apply(s, calls[0]), calls[1..])
  }

  /** What one request keeps. */
  ghost predicate Keeps(s: State, t: State) {
    (Consistent(s.doc) ==> Consistent(t.doc))
    && SameRecord(s.doc, t.doc)
    && s.doc.history <= t.doc.history
    && (Consistent(s.doc) && s.doc.status.IsClosed() ==> t.doc.status.IsClosed())
    && forall y, k :: Correlatives.Current(s.counters, y, k) <= Correlatives.Current(t.counters, y, k)
  }

  /** A derivation request keeps what `Keeps` asks for. */
  lemma DeriveKeeps(s: State, actor: Profile, action: Action, form: DerivationForm, env: Env, rendered: bool)
    ensures var o := Derive(s.doc, actor, action, form, env, s.counters, rendered);
            Keeps(s, State(if o.result.Ok? then o.result.value else s.doc, o.counters))
  {
    var o := Derive(s.doc, actor, action, form, env, s.counters, rendered);
    DeriveCountersMonotone(s.doc, actor, action, form, env, s.counters, rendered);
    if o.result.Ok? {
      DeriveEffect(s.doc, actor, action, form, env, s.counters, rendered);
      if Consistent(s.doc) {
        DerivePreserves(s.doc, actor, action, form, env, s.counters, rendered);
      }
    }
  }

  /** So does a redirection request ... */
  lemma RedirectKeeps(s: State, actor: Profile, f: RedirectForm, env: Env)
    ensures var r := Redirect(s.doc, actor, f, env);
            Keeps(s, State(if r.Ok? then r.value else s.doc, s.counters))
  {
    var r := Redirect(s.doc, actor, f, env);
    if r.Ok? && Consistent(s.doc) {
      AppendKeepsStartsOnce(s.doc, r.value);
    }
  }

  /** ... and an annulment request. */
  lemma AnnulKeeps(s: State, actor: Profile, f: AnnulForm, env: Env)
    ensures var r := Annul(s.doc, actor, f, env);
            Keeps(s, State(if r.Ok? then r.value else s.doc, s.counters))
  {
    var r := Annul(s.doc, actor, f, env);
    if r.Ok? && Consistent(s.doc) {
      AppendKeepsStartsOnce(s.doc, r.value);
    }
  }

  lemma ApplyKeeps(s: State, c: Call)
    ensures Keeps(s, Apply(s, c))
  {
    match c.request
    case DeriveRequest(actor, action, form, rendered) => DeriveKeeps(s, actor, action, form, c.env, rendered);
    case RedirectRequest(actor, f) => RedirectKeeps(s, actor, f, c.env);
    case AnnulRequest(actor, f) => AnnulKeeps(s, actor, f, c.env);
  }

  /** Whatever requests arrive, in whatever order: a consistent document
      stays consistent, its record fields never change, its history only
      grows, a closed document never reopens, and no counter goes down. */
  lemma {:induction false} RunKeeps(s: State, calls: seq<Call>)
    ensures Keeps(s, Run(s, calls))
    decreases |calls|
  {
    if |calls| > 0 {
      var s' := Apply(s, calls[0]);
      ApplyKeeps(s, calls[0]);
      RunKeeps(s', calls[1..]);
      var t := Run(s', calls[1..]);
      assert forall y, k :: Correlatives.Current(s.counters, y, k) <= Correlatives.Current(s'.counters, y, k)
                            <= Correlatives.Current(t.counters, y, k);
    }
  }

  /** Once a route change is recorded, the detail page stops showing the
      catalog route for good. */
  lemma DeviationIsPermanent(s: State, calls: seq<Call>)
    requires ReadViews.Deviated(s.doc.history)
    ensures ReadViews.DetailRoute(Run(s, calls).doc) == []
  {
    RunKeeps(s, calls);
    var t := Run(s, calls);
    ReadViews.DeviationPersists(s.doc.history, t.doc.history[|s.doc.history|..]);
    assert s.doc.history + t.doc.history[|s.doc.history|..] == t.doc.history;
  }
}

=== FILE: seeding.dfy ===
/** The catalog-seeding rules of cargar_datos_mpi.py: how a role is named
    from an area and a head flag, which roles become the routing
    responsibles of an area, and how a procedure's steps are numbered. */
module Seeding {
  import opened Results
  import Text
  import opened Catalog

  const MesaDePartes: string := "Mesa de Partes"

  /** Areas whose members all share one role named after the area. */
  predicate IsGenericArea(area: string) {
    area == "Docente" || area == "Jurado Evaluador" || area == MesaDePartes
  }

  /** Areas whose head's role is the bare area name. */
  predicate IsBareHeadArea(area: string) {
    area == "Dirección General" || area == "Secretaría Académica"
  }

  /** The role name given to a member of `area`. */
  function RoleName(area: string, isHead: bool): (r: string)
    ensures IsGenericArea(area) ==> r == area
    ensures !IsGenericArea(area) && isHead && IsBareHeadArea(area) ==> r == area
    ensures !IsGenericArea(area) && |area| > 0 && Text.NoEdgeSpace(area) ==>
              (isHead && !IsBareHeadArea(area) ==> r == "Jefe de " + area)
              && (!isHead ==> r == "Asistente de " + area)
  {
    if IsGenericArea(area) then area
    else
      var prefix := if isHead && IsBareHeadArea(area) then "" else if isHead then "Jefe de" else "Asistente de";
      Text.StripJoined(prefix, area);
      if prefix == "" then
        assert prefix + " " + area == " " + area;
        Text.StripLeadingSpace(area);
        Text.Strip(prefix + " " + area)
      else
        Text.Strip(prefix + " " + area)
  }

  /** A generic area's name does not depend on the head flag. */
  lemma GenericRoleIgnoresHead(area: string)
    requires IsGenericArea(area)
    ensures RoleName(area, true) == RoleName(area, false) == area
  {
  }

  // ---------------------------------------------------------------------------
  // The routing role of each area
  // ---------------------------------------------------------------------------

  datatype Member = Member(username: string, fullName: string, isHead: bool)

  /** One entry of the organisational structure: an area and its members
      in the order they are created. */
  datatype Area = Area(name: string, members: seq<Member>)

  /** A member whose role is recorded as the area's routing role. */
  predicate Qualifies(area: string, m: Member) {
    m.isHead || IsGenericArea(area)
  }

  predicate AreaQualifies(a: Area) {
    exists j :: 0 <= j < |a.members| && Qualifies(a.name, a.members[j])
  }

  /** The role map after visiting the members of one area in order. */
  function RecordMembers(roles: map<string, string>, area: string, members: seq<Member>): (r: map<string, string>)
    ensures forall a :: a in r <==>
              (a in roles || (a == area && exists j :: 0 <= j < |members| && Qualifies(area, members[j])))
    ensures forall a :: a in r && a != area ==> r[a] == roles[a]
    ensures (forall a :: a in roles ==> roles[a] == RoleName(a, true))
            ==> forall a :: a in r ==> r[a] == RoleName(a, true)
    decreases |members|
  {
    if |members| == 0 then roles
    else
      var before := RecordMembers(roles, area, members[..|members| - 1]);
      var m := members[|members| - 1];
      assert forall j :: 0 <= j < |members| - 1 ==> members[..|members| - 1][j] == members[j];
      if Qualifies(area, m) then before[area := RoleName(area, m.isHead)] else before
  }

  /** The routing role map built while seeding the structure: an area is a
      key exactly when one of its members is a head or the area is generic,
      and its value is the role its head would get. */
  function RoutingRoles(org: seq<Area>): (r: map<string, string>)
    ensures forall a :: a in r <==> exists i :: 0 <= i < |org| && org[i].name == a && AreaQualifies(org[i])
    ensures forall a :: a in r ==> r[a] == RoleName(a, true)
    decreases |org|
  {
    if |org| == 0 then map[]
    else
      var before := RoutingRoles(org[..|org| - 1]);
      var last := org[|org| - 1];
      assert forall i :: 0 <= i < |org| - 1 ==> org[..|org| - 1][i] == org[i];
      RecordMembers(before, last.name, last.members)
  }

  // ---------------------------------------------------------------------------
  // Procedure steps
  // ---------------------------------------------------------------------------

  /** A step as written in the seeding script: the area key of its
      responsible, its description and its own time limit in days. */
  datatype StepSpec = StepSpec(key: string, description: string, days: nat)

  /** The role responsible for a step: the key's routing role, or the
      Mesa de Partes role when the key has none; `None` when neither exists. */
  function Responsible(roles: map<string, string>, key: string): (r: Option<string>)
    ensures key in roles ==> r == Some(roles[key])
    ensures key !in roles && MesaDePartes in roles ==> r == Some(roles[MesaDePartes])
    ensures r.None? <==> key !in roles && MesaDePartes !in roles
  {
    if key in roles then Some(roles[key])
    else if MesaDePartes in roles then Some(roles[MesaDePartes])
    else None
  }

  /** The steps numbered from `first` on, in list order; `None` when some
      step has no responsible role (the database refuses a step without one). */
  function BuildSteps(specs: seq<StepSpec>, roles: map<string, string>, first: int): (r: Option<seq<StepDef>>)
    ensures r.Some? <==> forall i :: 0 <= i < |specs| ==> Responsible(roles, specs[i].key).Some?
    ensures r.Some? ==> |r.value| == |specs|
    ensures r.Some? ==> forall i :: 0 <= i < |specs| ==>
              r.value[i].order == first + i
              && r.value[i].description == specs[i].description
              && r.value[i].days == specs[i].days
              && Some(r.value[i].role) == Responsible(roles, specs[i].key)
    decreases |specs|
  {
    if |specs| == 0 then Some([])
    else
      var head := Responsible(roles, specs[0].key);
      var tail := BuildSteps(specs[1..], roles, first + 1);
      assert forall i :: 1 <= i < |specs| ==> specs[1..][i - 1] == specs[i];
      if head.None? || tail.None? then None
      else Some([StepDef(first, specs[0].description, head.value, specs[0].days)] + tail.value)
  }

  /** `crear_procedimiento`: the procedure stored under `code` (if any) keeps
      its name and total time limit; its steps are replaced by the numbered
      list and the Mesa de Partes role is added to the roles that may start
      it. `None` when the script would stop with an error. */
  function CreateProcedure(
    existing: Option<Procedure>, code: string, name: string, totalDays: nat,
    specs: seq<StepSpec>, roles: map<string, string>): (r: Option<Procedure>)
    requires existing.Some? ==> existing.value.code == code
    ensures r.Some? <==> MesaDePartes in roles
    ensures r.Some? ==> r.value.code == code && |r.value.steps| == |specs| && Dense(r.value.steps)
    ensures r.Some? && existing.None? ==>
              r.value.name == name && r.value.totalDays == totalDays
              && r.value.initiators == {roles[MesaDePartes]}
    ensures r.Some? && existing.Some? ==>
              r.value.name == existing.value.name && r.value.totalDays == existing.value.totalDays
              && r.value.initiators == existing.value.initiators + {roles[MesaDePartes]}
  {
    var proc := if existing.Some? then existing.value else Procedure(code, name, totalDays, [], {});
    var steps := BuildSteps(specs, roles, 1);
    if steps.None? || MesaDePartes !in roles then None
    else Some(proc.(steps := steps.value, initiators := proc.initiators + {roles[MesaDePartes]}))
  }

  /** Running the seeding of a procedure a second time changes nothing. */
  lemma CreateProcedureIdempotent(
    existing: Option<Procedure>, code: string, name: string, totalDays: nat,
    specs: seq<StepSpec>, roles: map<string, string>)
    requires existing.Some? ==> existing.value.code == code
    requires MesaDePartes in roles
    ensures var once := CreateProcedure(existing, code, name, totalDays, specs, roles);
            CreateProcedure(once, code, name, totalDays, specs, roles) == once
  {
  }

  /** Every step key of a seeded procedure resolves to a role, so on a
      dense catalog the step after `k` is entry `k` of the list. */
  lemma SeededNextStep(
    existing: Option<Procedure>, code: string, name: string, totalDays: nat,
    specs: seq<StepSpec>, roles: map<string, string>, k: int)
    requires existing.Some? ==> existing.value.code == code
    requires MesaDePartes in roles
    ensures var p := CreateProcedure(existing, code, name, totalDays, specs, roles).value;
            StepAt(p.steps, k + 1) == if 0 <= k < |specs| then Some(p.steps[k]) else None
  {
    var p := CreateProcedure(existing, code, name, totalDays, specs, roles).value;
    DenseStepAt(p.steps, k + 1);
  }
}

=== FILE: text.dfy ===
/** The handful of Python string operations the routing engine relies on:
    `sub in s`, `str.endswith`, `str.lower`, `str.isdigit`, `str.strip`,
    `f"{n}"` and `f"{n:04d}"`, each over `seq<char>`. */
module Text {
  import opened Results

  // ---------------------------------------------------------------------------
  // Substring search (`sub in s`)
  // ---------------------------------------------------------------------------

  predicate IsPrefix(p: string, s: string) {
    |p| <= |s| && s[..|p|] == p
  }

  predicate IsSuffix(p: string, s: string) {
    |p| <= |s| && s[|s| - |p|..] == p
  }

  /** Appending keeps a prefix. */
  lemma PrefixKept(p: string, a: string, b: string)
    requires IsPrefix(p, a)
    ensures IsPrefix(p, a + b)
  {
    assert (a + b)[..|p|] == a[..|p|];
  }

  /** Prepending keeps a suffix. */
  lemma SuffixKept(w: string, a: string, b: string)
    requires IsSuffix(w, b)
    ensures IsSuffix(w, a + b)
  {
    assert (a + b)[|a + b| - |w|..] == b[|b| - |w|..];
  }

  /** `sub` occurs in `s` starting at index `i`. */
  predicate OccursAt(s: string, sub: string, i: int) {
    0 <= i && i + |sub| <= |s| && s[i..i + |sub|] == sub
  }

  /** Python's `sub in s`, as a left-to-right scan. */
  function Contains(s: string, sub: string): bool
    decreases |s|
  {
    IsPrefix(sub, s) || (|s| > 0 && Contains(s[1..], sub))
  }

  /** The scan agrees with the positional definition, in both directions. */
  lemma {:induction false} ContainsIffOccurs(s: string, sub: string)
    ensures Contains(s, sub) <==> exists i :: OccursAt(s, sub, i)
    decreases |s|
  {
    if |s| > 0 {
      ContainsIffOccurs(s[1..], sub);
    }
    if Contains(s, sub) {
      if IsPrefix(sub, s) {
        assert OccursAt(s, sub, 0);
      } else {
        var i :| OccursAt(s[1..], sub, i);
        assert s[i + 1..i + 1 + |sub|] == s[1..][i..i + |sub|];
        assert OccursAt(s, sub, i + 1);
      }
    }
    if exists i :: OccursAt(s, sub, i) {
      var i :| OccursAt(s, sub, i);
      if i > 0 {
        assert s[1..][i - 1..i - 1 + |sub|] == s[i..i + |sub|];
        assert OccursAt(s[1..], sub, i - 1);
      }
    }
  }

  /** A text in which the first character of `sub` never appears does not
      contain `sub`. */
  lemma {:induction false} AbsentLeadChar(s: string, sub: string)
    requires |sub| > 0
    requires forall i :: 0 <= i < |s| ==> s[i] != sub[0]
    ensures !Contains(s, sub)
    decreases |s|
  {
    if |s| > 0 {
      if |sub| <= |s| {
        assert s[..|sub|][0] == s[0];
      }
      AbsentLeadChar(s[1..], sub);
    }
  }

  /** A text that starts with something containing `sub` contains `sub`. */
  lemma MarkerPrefixContained(marker: string, head: string, rest: string)
    requires IsPrefix(marker, head)
    ensures Contains(head + rest, marker)
  {
    assert (head + rest)[..|marker|] == head[..|marker|];
  }

  /** Prepending text never removes an occurrence. */
  lemma {:induction false} ContainsAfterPrepend(t: string, s: string, sub: string)
    requires Contains(s, sub)
    ensures Contains(t + s, sub)
    decreases |t|
  {
    if |t| > 0 {
      ContainsAfterPrepend(t[1..], s, sub);
      assert (t + s)[1..] == t[1..] + s;
    } else {
      assert t + s == s;
    }
  }

  // ---------------------------------------------------------------------------
  // Case folding, digits, whitespace
  // ---------------------------------------------------------------------------

  /** ASCII lower-casing of one character; every other character is kept. */
  function LowerChar(c: char): char {
    if 'A' <= c <= 'Z' then (c as int + 32) as char else c
  }

  function Lower(s: string): (r: string)
    ensures |r| == |s|
    ensures forall i :: 0 <= i < |s| ==> r[i] == LowerChar(s[i])
  {
    if |s| == 0 then "" else [LowerChar(s[0])] + Lower(s[1..])
  }

  lemma LowerIdempotent(s: string)
    ensures Lower(Lower(s)) == Lower(s)
  {
  }

  predicate IsDigit(c: char) {
    '0' <= c <= '9'
  }

  /** Python's `s.isdigit()` restricted to ASCII digits: false on "". */
  predicate IsDigits(s: string) {
    |s| > 0 && forall i :: 0 <= i < |s| ==> IsDigit(s[i])
  }

  predicate IsSpace(c: char) {
    c == ' ' || c == '\t' || c == '\n' || c == '\r' || c == '\U{0B}' || c == '\U{0C}'
  }

  function StripLeft(s: string): (r: string)
    ensures |r| <= |s| && r == s[|s| - |r|..]
    ensures |r| == 0 || !IsSpace(r[0])
    decreases |s|
  {
    if |s| > 0 && IsSpace(s[0]) then
      var r := StripLeft(s[1..]);
      assert s[1..][|s| - 1 - |r|..] == s[|s| - |r|..];
      r
    else s
  }

  function StripRight(s: string): (r: string)
    ensures IsPrefix(r, s)
    ensures |r| == 0 || !IsSpace(r[|r| - 1])
    decreases |s|
  {
    if |s| > 0 && IsSpace(s[|s| - 1]) then StripRight(s[..|s| - 1]) else s
  }

  /** Python's `s.strip()` over ASCII whitespace. */
  function Strip(s: string): string {
    StripRight(StripLeft(s))
  }

  predicate NoEdgeSpace(s: string) {
    |s| == 0 || (!IsSpace(s[0]) && !IsSpace(s[|s| - 1]))
  }

  lemma StripKeeps(s: string)
    requires NoEdgeSpace(s)
    ensures Strip(s) == s
  {
  }

  lemma StripLeadingSpace(s: string)
    requires NoEdgeSpace(s)
    ensures Strip(" " + s) == s
  {
    assert (" " + s)[1..] == s;
    assert StripLeft(" " + s) == StripLeft(s) == s;
  }

  /** `f"{prefix} {word}".strip()` keeps the text when the prefix starts
      with a visible character and the word has no edge spaces. */
  lemma StripJoined(prefix: string, word: string)
    ensures |prefix| > 0 && !IsSpace(prefix[0]) && |word| > 0 && NoEdgeSpace(word)
            ==> Strip(prefix + " " + word) == prefix + " " + word
  {
    var s := prefix + " " + word;
    if |prefix| > 0 && !IsSpace(prefix[0]) && |word| > 0 && NoEdgeSpace(word) {
      assert s[0] == prefix[0] && s[|s| - 1] == word[|word| - 1];
      StripKeeps(s);
    }
  }

  // ---------------------------------------------------------------------------
  // Decimal formatting and parsing
  // ---------------------------------------------------------------------------

  function DigitChar(d: nat): (c: char)
    requires d < 10
    ensures IsDigit(c) && DigitValue(c) == d
  {
    ('0' as int + d) as char
  }

  function DigitValue(c: char): nat {
    if IsDigit(c) then (c as int - '0' as int) as nat else 0
  }

  /** `f"{n}"` for a non-negative integer: shortest decimal form. */
  function NatToString(n: nat): (r: string)
    ensures |r| > 0 && IsDigits(r)
    ensures r[0] == '0' ==> n == 0
    decreases n
  {
    if n < 10 then [DigitChar(n)] else NatToString(n / 10) + [DigitChar(n % 10)]
  }

  /** Value of a digit string read most-significant first. */
  function DecimalValue(s: string): nat
    decreases |s|
  {
    if |s| == 0 then 0 else DecimalValue(s[..|s| - 1]) * 10 + DigitValue(s[|s| - 1])
  }

  /** `int(s)` on strings of ASCII digits; `None` where Python would raise. */
  function ParseNat(s: string): (r: Option<nat>)
    ensures r.Some? <==> IsDigits(s)
  {
    if IsDigits(s) then Some(DecimalValue(s)) else None
  }

  lemma {:induction false} NatToStringRoundTrip(n: nat)
    ensures ParseNat(NatToString(n)) == Some(n)
    decreases n
  {
    var s := NatToString(n);
    if n >= 10 {
      NatToStringRoundTrip(n / 10);
      assert s[..|s| - 1] == NatToString(n / 10);
      assert DigitValue(s[|s| - 1]) == n % 10;
    } else {
      assert s == [DigitChar(n)];
      assert s[..|s| - 1] == [];
      assert DecimalValue(s) == DigitValue(s[0]) == n;
    }
  }

  function Zeros(k: nat): (r: string)
    ensures |r| == k
    ensures forall i :: 0 <= i < k ==> r[i] == '0'
  {
    if k == 0 then "" else "0" + Zeros(k - 1)
  }

  /** Leading zeros do not change the value read. */
  lemma {:induction false} LeadingZerosValue(k: nat, s: string)
    ensures DecimalValue(Zeros(k) + s) == DecimalValue(s)
    decreases |s|, k
  {
    if |s| == 0 {
      assert Zeros(k) + s == Zeros(k);
      if k > 0 {
        assert Zeros(k)[..k - 1] == Zeros(k - 1);
        LeadingZerosValue(k - 1, s);
        assert Zeros(k - 1) + s == Zeros(k - 1);
      }
    } else {
      var t := Zeros(k) + s;
      assert t[..|t| - 1] == Zeros(k) + s[..|s| - 1];
      LeadingZerosValue(k, s[..|s| - 1]);
    }
  }

  /** 10 to the power `k`. */
  function Pow10(k: nat): (r: nat)
    ensures r >= 1
  {
    if k == 0 then 1 else 10 * Pow10(k - 1)
  }

  /** A number below 10^k has at most k digits. */
  lemma {:induction false} NatToStringWidth(n: nat, k: nat)
    requires 1 <= k && n < Pow10(k)
    ensures |NatToString(n)| <= k
    decreases k
  {
    if n >= 10 {
      assert k >= 2;
      assert n / 10 < Pow10(k - 1);
      NatToStringWidth(n / 10, k - 1);
    }
  }

  /** `f"{n:04d}"`: the decimal form left-padded with zeros to `width`. A
      number already that wide is written as it is. */
  function ZeroPadded(n: nat, width: nat): (r: string)
    ensures IsDigits(r)
    ensures |r| == if |NatToString(n)| < width then width else |NatToString(n)|
    ensures |NatToString(n)| >= width ==> r == NatToString(n)
    ensures ParseNat(r) == Some(n)
  {
    var digits := NatToString(n);
    var pad := if |digits| < width then width - |digits| else 0;
    NatToStringRoundTrip(n);
    LeadingZerosValue(pad, digits);
    Zeros(pad) + digits
  }

  // ---------------------------------------------------------------------------
  // Splitting at a separator
  // ---------------------------------------------------------------------------

  /** Index of the first `c` in `s`, if any. */
  function IndexOf(s: string, c: char): (r: Option<nat>)
    ensures r.Some? ==> r.value < |s| && s[r.value] == c
    ensures r.Some? ==> forall j :: 0 <= j < r.value ==> s[j] != c
    ensures r.None? ==> forall j :: 0 <= j < |s| ==> s[j] != c
    decreases |s|
  {
    if |s| == 0 then None
    else if s[0] == c then Some(0)
    else match IndexOf(s[1..], c)
      case None => None
      case Some(k) => Some(k + 1)
  }

  lemma IndexOfAfterDigits(a: string, c: char, b: string)
    requires IsDigits(a) && !IsDigit(c)
    ensures IndexOf(a + [c] + b, c) == Some(|a|)
  {
    var s := a + [c] + b;
    assert s[|a|] == c;
    assert forall j :: 0 <= j < |a| ==> s[j] == a[j] && IsDigit(s[j]);
  }
}
